=== FILE: README.md ===
# Configuration-schema flattener

A Dafny model of the schema-flattening engine of Tyk's configuration
generator (`scripts/config-generator/app.js`). The generator reads Go
source text, finds a named `type X struct { ... }` declaration, and turns
it into an ordered list of configuration nodes. Each node is a `header`
or a `variable`, with a composed key (`Outer_Inner`), a JSON path
(`outer.inner`) and an environment name (`PREFIX_OUTER_INNER`).

Along the way the engine does several things:

- It inlines anonymous nested `Key struct { ... }` blocks, in a tagged
  pass and then an untagged pass.
- It expands `// TYKCONFIGEXPAND` directives from dependency files.
- It reads each field's comment, name, type, JSON tag and `omitempty` flag,
  tagged fields first.
- It classifies each field's type, first match wins:
  1. a `map[K]` / `map[K][]` declarator is split off;
  2. a struct of the same file gives a header and then its children;
  3. a slice of such a struct gives one variable with nested entries;
  4. a dependency type gives a header and then its children;
  5. anything else is a scalar, with four type aliases.
- For Tyk Pump, children whose environment name holds `{PMP_NAME}` are
  kept aside as templates. At the `TYK_PMP_META` sentinel they are replayed
  once per pump module, followed by that pump's own fields.

Files:

| file | contents |
|---|---|
| `strings.dfy` | the JavaScript string operations the engine uses (`replace` with a string pattern, `includes`, ASCII `toUpperCase`/`toLowerCase`, `trim`, `split`/`join`) |
| `schema.dfy` | lexed lines, struct items, source blobs, the ordered dependency table, output nodes |
| `locator.dfy` | the textual locator of `type X struct {` ... first `\n}` on raw strings |
| `fields.dfy` | the line grammar (which lines the field patterns recognise), field metadata, the two-pass order, synthesised lines |
| `nodes.dfy` | the map-declarator split, scalar aliases, `createVariableObject`, template replay |
| `engine.dfy` | the mutually recursive engine: `GetStruct`, the inlining and expansion passes, `GetVariables`, the classifier, children and pump nodes |
| `passes.dfy` | lemmas about the passes over a whole body: each block or directive replaced in place, the field resolver as a concatenation over the lines, the pump sentinel as a concatenation over the pumps |
| `composition.dfy` | lemmas about the node builders |
| `properties.dfy` | lemmas about the engine, one field or one body at a time |
| `findings.dfy` | the three discrepancies below, as written and corrected |

A struct body is modelled as a list of pre-lexed items, not as text.
These are field lines, nested blocks (with the tag on their closing line,
if any, and its `omitempty` flag) and expand directives. Whether a synthesised line is picked
up again is decided by a grammar predicate that mirrors the character
classes of the source's patterns.

The source recurses without bound, so every engine function takes `fuel`.
The file-scoped template array is passed in explicitly and handed back
with every result. Some source paths never finish or throw, and each is an
error of the model:

- `OutOfFuel`: the recursion needed more levels than `fuel` allows.
- `Diverges`: the tagged inlining loop selects the same block forever,
  which happens to a block whose closing tag carries `,omitempty` (see
  the findings). Each turn of that loop first resolves the block's body,
  so the loop never finishes unless resolving the block throws. In that
  case the model reports the body's own error.
- `Crash`: `.map` or `.forEach` on the `undefined` that `getStruct`
  returns for a missing struct (lines 181, 280, 305, 323 and 343), and
  reading the declaration of a `pumps.*` file that has none (line 290).
  The driver only registers pump files that have one, so the latter
  cannot arise from the driver. A crash inside the pump branch (lines
  281-307) runs in an `async` callback and would only reject that
  callback's promise. The model still treats it as a crash of the whole
  run; see "Left out".

Behaviour worth noting:

- A missing struct is not an empty result. `GetStruct` yields `None`, and
  every caller that iterates over it crashes.
- A dependency field is looked up by its exact type. The struct named is
  the type's second dotted segment, after the first `*` is dropped. It is
  not the last segment.
- A field type used as a pattern to find a struct of the same file may
  start with `*`: `type *S struct` finds `type S struct`, so fields
  typed `*S` and `[]*S` resolve as the struct `S`.
- A field whose struct holds the pump sentinel still gets its header.
- The header of a composite field comes first, directly followed by its
  children. The `json` it shows is the value after the pump branch has
  overwritten it.

## Model

| member | source | states |
|---|---|---|
| Locator.Locate | scripts/config-generator/app.js:109-113 | the span found starts at the first `type X struct {` and ends at the first `\n}` at least one character after it; none is found exactly when no such span exists |
| Locator.IsDeclared | scripts/config-generator/app.js:381-383 | the struct test is true exactly when the locator would find a span |
| Engine.GetStruct | scripts/config-generator/app.js:107-128 | an undeclared name yields `None` (the source's `undefined`), never a list; a declared one yields a list when it succeeds; the template accumulator only grows, and only by templates |
| Engine.InlinePass | scripts/config-generator/app.js:131-171 | after a pass no nested block of that pass's mode remains; a body without such blocks is returned unchanged with the accumulator untouched; corrected, the pass never spins |
| Passes.InlinePassOrigin | scripts/config-generator/app.js:138-168 | the blocks of the other mode and the directives left after a pass are all taken from its input: a pass adds only field lines |
| Passes.InlinePassAppend | scripts/config-generator/app.js:138-168 | a pass over two consecutive parts of a body is the pass over the first part, then the pass over the second starting from the accumulator the first left; the first failure ends it |
| Passes.BlockInPlace | scripts/config-generator/app.js:138-166 | a block of the pass's mode is replaced where it stands by one line `Key.inner` per variable of its body; the items before it are kept in order and the pass goes on after it |
| Engine.ExpandPass | scripts/config-generator/app.js:173-195 | no directive survives the pass; a body without directives is returned unchanged with the accumulator untouched |
| Passes.ExpandPassOrigin | scripts/config-generator/app.js:174-193 | every nested block after the expansion pass is taken from its input |
| Passes.ExpandKeepsPrefix | scripts/config-generator/app.js:174-193 | items that are not directives are kept in order and leave the fallback lines and the accumulator alone |
| Passes.ExpandInPlace | scripts/config-generator/app.js:178-191 | a directive whose dependency resolves is replaced where it stands by one line per variable of the dependency's struct, and those lines become the fallback for later directives |
| Passes.FallbackInPlace | scripts/config-generator/app.js:174-191 | a directive whose dependency is missing is replaced where it stands by the fallback lines, which stay the fallback |
| Engine.GetVariables | scripts/config-generator/app.js:197-234 | a body with no recognised field line yields the empty list and leaves the accumulator alone |
| Passes.GetVariablesChain | scripts/config-generator/app.js:197-234 | the variables of a body are the nodes of its recognised lines, tagged ones first, each line classified in turn from the accumulator the previous one left, concatenated in order; the first line that fails fails the body with that error |
| Passes.ResolveAllChain | scripts/config-generator/app.js:237-378 | when every line classifies in turn, the nodes are those of each line concatenated in order, and the accumulator is the one the last line left |
| Passes.ResolveAllStops | scripts/config-generator/app.js:237-378 | the first line that fails to classify fails the whole list with its error |
| Engine.Classify | scripts/config-generator/app.js:252-378 | a field's first node carries its name and description, and it is a header exactly when the stripped type is a struct of the same file, or a dependency type that is not a slice of a same-file struct |
| Fields.FieldMetadata | scripts/config-generator/app.js:258-267 | the description is absent exactly when no comment is attached; split at newlines it gives one line per comment line, each less one leading space; the JSON name is the tag or the defaulted name; required exactly when `omitempty` is absent |
| Fields.DefaultJsonName | scripts/config-generator/app.js:266 | an untagged field's JSON name is its name with the first `_`, and no other, turned into `.` |
| Fields.OrderedFields | scripts/config-generator/app.js:202-223 | every tagged recognised line comes before every untagged one, and together they are the recognised lines, each exactly once; each pass keeps source order across any split of the body |
| Fields.PassesCoverRecognised | scripts/config-generator/app.js:202-223 | the two passes together capture each recognised line exactly once |
| Fields.SynthCommentRead | scripts/config-generator/app.js:153 | the comment written above a synthesised line reads back as the trimmed description it came from |
| Nodes.FirstMap | scripts/config-generator/app.js:34 | the declarator found is the leftmost `map[K]` or `map[K][]` in the type; none is reported only when the type contains none |
| Composition.SplitMapRoundTrip | scripts/config-generator/app.js:270-274 | without a declarator the type is left whole; a declarator at the front is split off so that the two parts concatenate back to the type; a declarator found is at least `map[` plus a key and `]` |
| Composition.SplitMapExamples | scripts/config-generator/app.js:270-274 | `map[K]V` splits into `map[K]` and `V`, and `map[K][]V` into `map[K][]` and `V` |
| Composition.ScalarTypeRules | scripts/config-generator/app.js:356-362 | an aliased type ignores the map declarator and is one of the four alias targets; any other type gets the declarator put back in front |
| Composition.TypeChildNames | scripts/config-generator/app.js:385-409 | outside the pump table a child's key is `outer_inner`, its JSON path `outer.inner`, its environment name the prefix and the upper-cased child key; the map declarator goes before its type; the flavour defaults to variable; description, required and nested are copied |
| Composition.ChildNamesInjective | scripts/config-generator/app.js:406-408 | two children of one field share a key exactly when the inner keys are equal, and a JSON path exactly when the inner JSON names are equal |
| Composition.PumpTableChild | scripts/config-generator/app.js:394-398 | under the pump prefix a `Pumps` field's child is keyed `Pumps.{PMP_NAME}_inner`, with environment name `PREFIX_PUMPS_{PMP_NAME}_INNER` and path `json.{PMP_NAME}.inner`; it gets no map declarator and is a template |
| Composition.ArrayEntryNames | scripts/config-generator/app.js:411-414 | an entry nested in a slice field keeps the inner key and JSON name and has neither environment name nor flavour |
| Composition.PumpFieldNames | scripts/config-generator/app.js:416-420 | a pump's own field keeps its key, environment name and type, and is placed under `pumps.<name>.meta.` |
| Composition.ReplayPumpTableChild | scripts/config-generator/app.js:295-302 | replaying a pump-table child for pump `Name` gives key `Pumps.Name_inner`, environment name `PREFIX_PUMPS_NAME_INNER` and path `json.name.inner`; the type is kept and required is dropped |
| Properties.ScalarField | scripts/config-generator/app.js:348-364 | a scalar field yields exactly one variable: its name, environment name `prefix_KEY`, the tag or defaulted JSON name, required unless `omitempty`, the aliased or declarator-prefixed type, nothing nested |
| Properties.StructField | scripts/config-generator/app.js:277-318 | for a same-file struct without the pump sentinel among its variables, the field yields its header (no environment name, stripped type, the field's own JSON name), then its non-template children in order; the template children are appended to the accumulator in order |
| Properties.StructFieldPumps | scripts/config-generator/app.js:277-318 | for a same-file struct holding the pump sentinel once, the field yields its header carrying the JSON path the pump branch leaves behind, the plain children before the sentinel, every pump's nodes, then the plain children after it, built with that path; the pumps see the templates gathered before the sentinel; a failing pump fails the field |
| Properties.ChildNodesSentinel | scripts/config-generator/app.js:280-318 | with the sentinel once among the variables, the children are the plain ones before it, the pumps' nodes from the templates gathered so far, then the plain ones after it under the pumps' final JSON path; the accumulator ends with the later templates |
| Properties.ChildNodesPrefix | scripts/config-generator/app.js:280-318 | children before any sentinel are handled one by one whatever follows: their plain nodes come first, their templates are added to the accumulator the rest starts from |
| Properties.ChildNodesPartition | scripts/config-generator/app.js:311-317 | without a pump sentinel, the children are the non-templates of the reference child list, and the accumulator gains exactly its templates |
| Properties.ArrayField | scripts/config-generator/app.js:320-335 | a slice-of-struct field yields one variable with type `[]S`, no environment name, and one nested entry per inner variable keeping its key and JSON name |
| Properties.DependencyField | scripts/config-generator/app.js:338-345 | a dependency field yields a header with the field's own JSON name, then the child of every variable of the dependency's struct in order, none held back for the pumps (in the pump table all of them are templates, yet they are emitted); outside the pump table each child has the composed key, JSON path and environment name |
| Properties.PumpNodesJson | scripts/config-generator/app.js:286-292 | with no pump module the sentinel contributes nothing; a successful expansion means every pump file declares its pump; afterwards `json` holds the last pump's lower-case name |
| Properties.PumpNodesReplayFirst | scripts/config-generator/app.js:286-302 | the sentinel's nodes begin with every accumulated template replayed for the first pump module, in order |
| Passes.PumpNodesChain | scripts/config-generator/app.js:284-309 | pump by pump in table order, the sentinel yields the templates accumulated so far replayed for that pump, then the pump's own fields under `pumps.<name>.meta.`; afterwards `json` is the last pump's lower-case name, or unchanged with no pump |
| Properties.PassesLeaveFieldLines | scripts/config-generator/app.js:115-120 | after the tagged pass, the untagged pass and the expansion, only field lines remain |
| Properties.ExpandedDirective | scripts/config-generator/app.js:179-190 | a directive whose dependency is present becomes one line per variable of the dependency's struct, keeping each variable's own key, type and JSON name |
| Properties.StaleExpansion | scripts/config-generator/app.js:174-190 | a directive whose dependency is missing becomes no line when it is first (the source inserts the text `undefined`, which holds no field line), and a second copy of the previous expansion otherwise |
| Findings.InlinedLineRead | scripts/config-generator/app.js:150-158 | an inlined line is named `Key.inner` and has the inner type; in the tagged mode its JSON tag is `json.inner` without `omitempty` |
| Findings.InlinedLineIgnored | scripts/config-generator/app.js:24 | as written, no inlined line is recognised by the field patterns |
| Findings.NestedFieldVanishes | scripts/config-generator/app.js:116 | as written, a struct made of one nested block around one field resolves to no variables |
| Findings.InlinedLineRecognised | scripts/config-generator/app.js:150-158 | with `.` allowed in field names, every inlined line of well-formed variables is recognised |
| Findings.NestedFieldKept | scripts/config-generator/app.js:116 | corrected, the same struct resolves to the single variable `Inner.Port` with path `inner.port` |
| Findings.CommentedBlockGainsField | scripts/config-generator/app.js:210-214 | as written, a tagged block around one tagged scalar field resolves to that field alone without a comment, but with a comment attached above it to that field followed by a spurious variable named after the block, typed `struct` |
| Findings.CommentedBlockRewritten | scripts/config-generator/app.js:143-166 | as written, the tagged pass rewrites such a commented block into two lines instead of one: the field's, then a line `Key.Key` typed `struct` |
| Findings.CommentedBlockUnchanged | scripts/config-generator/app.js:210-214 | corrected, every struct resolves exactly as the same struct with no comment above any of its nested blocks |
| Findings.OmitEmptyBlockDiverges | scripts/config-generator/app.js:138-166 | as written, a struct whose tagged pass reaches a block closed with a `,omitempty` tag, and whose body resolves, never finishes |
| Findings.OmitEmptyBlockFails | scripts/config-generator/app.js:138-166 | as written, when the body of such a block fails to resolve, the struct fails with the body's error instead of looping |
| Findings.OmitEmptyPassStops | scripts/config-generator/app.js:138-166 | the tagged pass that reaches such a block ends there: with the body's error if resolving it fails, otherwise it never finishes |
| Findings.OmitEmptyBlockInlined | scripts/config-generator/app.js:143-166 | corrected, such a block is inlined like any other: one line per variable of its body, each tagged `json.inner` without `omitempty` |

## Left out

- The driver at lines 39-103 is left out: argument parsing, fetching files over the network, writing output, and rendering documentation. The product's prefix, the dependency table and the pump prefix are parameters (`Run`).
- Regular-expression matching on raw text is left out, apart from the struct locator. Struct bodies are pre-lexed items. A synthesised line is re-read through a predicate over the same character classes, not by a regex engine.
- A struct name or field type is used as a regular expression at lines 109, 163 and 382. A leading `*` is honoured (it finds the struct without it); any other metacharacter is compared literally.
- How a struct body is lexed into items is not modelled. An empty block, `Key struct {` directly followed by its closing line, is not selected by the block patterns at lines 28-29; the field patterns read it as the field `Key` of type `struct`, and it has to be given to the model as that field line.
- Engine.InlinePass: each nested block is selected on its own. The source's lazy block pattern at line 28 runs from `Key struct {` to the first closing line that carries a JSON tag, so an untagged block followed later by a tagged block is selected as one block, with the first block's name and the second block's tag; that merged selection is not modelled.
- Engine.ExpandPass: comment lines directly above a `// TYKCONFIGEXPAND` directive are not consumed by the pattern at line 36 and join the description of the first expanded line; the model drops them.
- Properties.StructFieldPumps: states a struct whose variables hold the pump sentinel once. A struct holding it twice runs the pump branch at each, as `Engine.ChildNodes` defines, but no lemma states that case.
- Engine.PumpNodes: the pump branch runs inside an `async` callback (line 280), so a throw there rejects only that callback's promise; the source then goes on with the next variable and writes a truncated list. The model reports the error `Crash` for the whole run instead.
- The textual rewrite loops at lines 138 and 175 are modelled as one structural pass over the items. A nested block inside a nested block is not modelled: items hold one level.
- The `async` callbacks at lines 39 and 280 run sequentially: nothing awaits inside the core.
- `toUpperCase`, `toLowerCase` and `trim` are modelled on ASCII letters and ASCII white space only.
- Engine.GetStruct: recursion is bounded by `fuel`. Running out is the error `OutOfFuel`. Behaviour on self-referential structs, which never finish in the source, is not described beyond that.
- Nodes.Alias: the second `EnvMapString` test at line 360 can never fire and has no entry.
- Log messages at lines 127 and 228-229 are not modelled. The `undefined` result is modelled as `None`.

## Findings

| source | as written | input that shows it | evidently intended | confidence | as-written member | corrected member |
|---|---|---|---|---|---|---|
| scripts/config-generator/app.js:150-158 | inlined lines are named `Key.inner`, but the field-name class `[_\w]` of line 24 has no `.`, so the field patterns never pick them up again | `type Outer struct {` holding `Inner struct {` with field `Port int` tagged `json:"port"`, closed with tag `json:"inner"` | the nested field resolves to the variable `Inner.Port` with path `inner.port`; its environment name then follows the scalar rule, `<prefix>_INNER.PORT`, and whether the authors wanted that `.` is not evident | not executed | Findings.NestedFieldVanishes | Findings.NestedFieldKept |
| scripts/config-generator/app.js:210-214 | resolving a nested block on its own drops only the first and last text lines, so with a comment above the block its `Key struct {` line survives and is read as a field of type `struct`. The tagged pass then writes it out as an extra line `Key.Key struct` (Findings.CommentedBlockRewritten); because of the first finding that line is not read again, so the enclosing struct's variables do not change as written | a comment line `// c` above a block `Key struct {` holding `Port int` tagged `json:"port"`, closed with tag `json:"key"` | the block's own opening line is never a field | not executed | Findings.CommentedBlockGainsField | Findings.CommentedBlockUnchanged |
| scripts/config-generator/app.js:163 | the block pattern of line 28 accepts a closing tag with `,omitempty`, but the pattern that replaces the selected block spells the tag without it, so nothing is replaced and the loop at line 138 selects the same block for ever, unless resolving the block throws | a block `Foo struct {` holding `X int`, closed with `` `json:"foo,omitempty"` `` | the block is inlined like any other | not executed | Findings.OmitEmptyBlockDiverges | Findings.OmitEmptyBlockInlined |

=== FILE: composition.dfy ===
/** Properties of the node builders: how a child's names are composed from
    its parent's, what a slice entry and a pump field keep, which scalar
    type is shown, how the map declarator splits off, and what replaying a
    pump template produces. */
module Composition {
  import opened Strings
  import opened Schema
  import opened Nodes

  lemma AppendCancel(a: string, b: string, c: string)
    requires a + b == a + c
    ensures b == c
  {
    assert b == (a + b)[|a|..];
    assert c == (a + c)[|a|..];
  }

  /** A child of an ordinary struct field: key `outer_inner`, JSON path
      `outer.inner`, the declarator in front of the inner type, description,
      required flag and nested list copied, a header stays a header and
      anything else becomes a variable. Its environment name is the prefix
      and the upper-cased composed key, so it is built from the inner key
      and never from the inner environment name. */
  lemma TypeChildNames(key: string, map': string, json: string, prefix: string, pumpPrefix: string, v: Node)
    requires !PumpTable(key, prefix, pumpPrefix)
    ensures Child(TypeChild, key, map', json, prefix, pumpPrefix, v).key == key + "_" + v.key
    ensures Child(TypeChild, key, map', json, prefix, pumpPrefix, v).json == json + "." + v.json
    ensures Child(TypeChild, key, map', json, prefix, pumpPrefix, v).env
            == Some(prefix + "_" + Upper(Child(TypeChild, key, map', json, prefix, pumpPrefix, v).key))
    ensures Child(TypeChild, key, map', json, prefix, pumpPrefix, v).typ == map' + v.typ
    ensures Child(TypeChild, key, map', json, prefix, pumpPrefix, v).flavour
            == Some(if v.flavour == Some(Header) then Header else Variable)
    ensures Child(TypeChild, key, map', json, prefix, pumpPrefix, v).description == v.description
    ensures Child(TypeChild, key, map', json, prefix, pumpPrefix, v).required == v.required
    ensures Child(TypeChild, key, map', json, prefix, pumpPrefix, v).nested == v.nested
  {
    var c := Child(TypeChild, key, map', json, prefix, pumpPrefix, v);
    assert c.key == key + ("_" + v.key);
    UpperAppend(key, "_" + v.key);
    UpperAppend("_", v.key);
    assert Upper("_") == "_";
    assert Upper(c.key) == Upper(key) + ("_" + Upper(v.key));
    assert c.env == Some(prefix + "_" + Upper(key) + "_" + Upper(v.key));
    assert prefix + "_" + Upper(c.key) == prefix + "_" + Upper(key) + "_" + Upper(v.key);
    match v.flavour
    case Some(Header) =>
    case Some(Variable) =>
    case None =>
  }

  /** Two children of the same field share a key only when their inner
      variables do; the same holds of their JSON paths. */
  lemma ChildNamesInjective(key: string, map': string, json: string, prefix: string, pumpPrefix: string,
                            v: Node, w: Node)
    ensures (Child(TypeChild, key, map', json, prefix, pumpPrefix, v).key
             == Child(TypeChild, key, map', json, prefix, pumpPrefix, w).key) <==> v.key == w.key
    ensures (Child(TypeChild, key, map', json, prefix, pumpPrefix, v).json
             == Child(TypeChild, key, map', json, prefix, pumpPrefix, w).json) <==> v.json == w.json
  {
    var table := PumpTable(key, prefix, pumpPrefix);
    var key' := if table then PumpsKey + "." + Placeholder else key;
    var json' := if table then json + "." + Placeholder else json;
    if key' + "_" + v.key == key' + "_" + w.key {
      AppendCancel(key' + "_", v.key, w.key);
    }
    if json' + "." + v.json == json' + "." + w.json {
      AppendCancel(json' + ".", v.json, w.json);
    }
  }

  /** The pump table's children are templates: the key segment and the
      environment segment become the placeholder, the JSON path gains it,
      and no map declarator is put in front of the type. */
  lemma PumpTableChild(map': string, json: string, pumpPrefix: string, v: Node)
    ensures Child(TypeChild, PumpsKey, map', json, pumpPrefix, pumpPrefix, v).key
            == "Pumps.{PMP_NAME}_" + v.key
    ensures Child(TypeChild, PumpsKey, map', json, pumpPrefix, pumpPrefix, v).env
            == Some(pumpPrefix + "_PUMPS_{PMP_NAME}_" + Upper(v.key))
    ensures Child(TypeChild, PumpsKey, map', json, pumpPrefix, pumpPrefix, v).json
            == json + ".{PMP_NAME}." + v.json
    ensures Child(TypeChild, PumpsKey, map', json, pumpPrefix, pumpPrefix, v).typ == v.typ
    ensures IsTemplate(Child(TypeChild, PumpsKey, map', json, pumpPrefix, pumpPrefix, v))
  {
    UpperPumps();
    PumpTableKey(v.key);
    PumpTableJson(json, v.json);
    PumpTableEnv(pumpPrefix, Upper(v.key));
  }

  lemma UpperPumps()
    ensures Upper(PumpsKey) == "PUMPS"
  {
  }

  lemma PumpTableKey(k: string)
    ensures PumpsKey + "." + Placeholder + "_" + k == "Pumps.{PMP_NAME}_" + k
  {
  }

  lemma PumpTableJson(json: string, j: string)
    ensures json + "." + Placeholder + "." + j == json + ".{PMP_NAME}." + j
  {
    assert json + "." + Placeholder + "." == json + ".{PMP_NAME}.";
  }

  /** The environment name of a pump-table template holds the placeholder. */
  lemma PumpTableEnv(pumpPrefix: string, k: string)
    ensures pumpPrefix + "_" + ("PUMPS" + "_" + Placeholder) + "_" + k == pumpPrefix + "_PUMPS_{PMP_NAME}_" + k
    ensures Contains(pumpPrefix + "_PUMPS_{PMP_NAME}_" + k, Placeholder)
  {
    var e := pumpPrefix + "_PUMPS_{PMP_NAME}_" + k;
    assert pumpPrefix + "_" + ("PUMPS" + "_" + Placeholder) + "_" == pumpPrefix + "_PUMPS_{PMP_NAME}_";
    assert OccursAt(e, Placeholder, |pumpPrefix| + 7) by {
      assert e[|pumpPrefix| + 7..|pumpPrefix| + 17] == Placeholder;
    }
  }

  /** An entry of a slice's nested list keeps the inner key and JSON path
      and carries neither environment name nor flavour. */
  lemma ArrayEntryNames(key: string, map': string, json: string, prefix: string, pumpPrefix: string, v: Node)
    ensures Child(ArrayChild, key, map', json, prefix, pumpPrefix, v).key == v.key
    ensures Child(ArrayChild, key, map', json, prefix, pumpPrefix, v).json == v.json
    ensures Child(ArrayChild, key, map', json, prefix, pumpPrefix, v).env.None?
    ensures Child(ArrayChild, key, map', json, prefix, pumpPrefix, v).flavour.None?
    ensures !PumpTable(key, prefix, pumpPrefix) ==>
              Child(ArrayChild, key, map', json, prefix, pumpPrefix, v).typ == map' + v.typ
  {
  }

  /** A pump's own field keeps its key and environment name and is placed
      under `pumps.<name>.meta.` in the JSON path, whatever the pump
      product's prefix. */
  lemma PumpFieldNames(name: string, pumpPrefix: string, v: Node)
    ensures Child(PumpChild, Lower(name), "", "", PumpFieldPrefix, pumpPrefix, v).key == v.key
    ensures Child(PumpChild, Lower(name), "", "", PumpFieldPrefix, pumpPrefix, v).env == v.env
    ensures Child(PumpChild, Lower(name), "", "", PumpFieldPrefix, pumpPrefix, v).json
            == "pumps." + Lower(name) + ".meta." + v.json
    ensures Child(PumpChild, Lower(name), "", "", PumpFieldPrefix, pumpPrefix, v).typ == v.typ
  {
    if |name| > 0 {
      assert Lower(name)[0] == LowerChar(name[0]) != 'P';
    }
  }

  /** The four aliases win over a stripped map declarator; every other
      scalar type gets the declarator back in front. */
  lemma ScalarTypeRules(map': string, t: string)
    ensures Alias(t).Some? ==> forall other :: ScalarType(other, t) == ScalarType(map', t)
    ensures Alias(t).Some? ==> ScalarType(map', t) in {"string", "map[string]string", "map[ObjectGroup]string", "int"}
    ensures Alias(t).None? ==> ScalarType(map', t) == map' + t
    ensures t == "EnvMapString" ==> ScalarType(map', t) == "map[string]string"
  {
  }

  /** A type that starts with a map declarator is that declarator followed
      by the type the classifier goes on with; a type without one is left
      alone. */
  lemma SplitMapRoundTrip(t: string)
    ensures FirstMap(t, 0).None? ==> SplitMap(t) == ("", t)
    ensures FirstMap(t, 0).Some? && FirstMap(t, 0).value.0 == 0 ==> SplitMap(t).0 + SplitMap(t).1 == t
    ensures FirstMap(t, 0).Some? ==> |SplitMap(t).0| >= 6 && SplitMap(t).0[..4] == "map["
  {
    match FirstMap(t, 0)
    case Some((i, m)) =>
      assert m == t[i..i + |m|];
      assert m[..4] == t[i..i + 4];
      if i == 0 {
        assert m + t[|m|..] == t;
      }
    case None =>
  }

  /** `map[K]V` splits into `map[K]` and `V`, and `map[K][]V` into
      `map[K][]` and `V`. */
  lemma SplitMapExamples()
    ensures SplitMap("map[K]V") == ("map[K]", "V")
    ensures SplitMap("map[K][]V") == ("map[K][]", "V")
  {
    MapDeclarator();
    SliceMapDeclarator();
  }

  lemma MapDeclarator()
    ensures MapAt("map[K]V", 0) == Some("map[K]")
  {
    var t := "map[K]V";
    assert OccursAt(t, "map[", 0);
    assert KeyRun(t, 4) == 1;
    assert !OccursAt(t, "[]", 6);
    assert t[..6] == "map[K]";
    DeclaratorAt(t, 1);
  }

  lemma SliceMapDeclarator()
    ensures MapAt("map[K][]V", 0) == Some("map[K][]")
  {
    var t := "map[K][]V";
    assert OccursAt(t, "map[", 0);
    assert KeyRun(t, 4) == 1;
    assert OccursAt(t, "[]", 6) by { assert t[6..8] == "[]"; }
    assert t[..8] == "map[K][]";
    DeclaratorAt(t, 1);
  }

  /** The declarator at the front of `t` whose key is `n` characters long. */
  lemma DeclaratorAt(t: string, n: nat)
    requires OccursAt(t, "map[", 0) && 0 < n && 4 + n < |t| && KeyRun(t, 4) == n && t[4 + n] == ']'
    ensures OccursAt(t, "[]", 5 + n) ==> MapAt(t, 0) == Some(t[..7 + n])
    ensures !OccursAt(t, "[]", 5 + n) ==> MapAt(t, 0) == Some(t[..5 + n])
  {
  }

  /** The first occurrence of a pattern that starts with a character absent
      from `a` lies beyond `a`. */
  lemma FirstOccurrenceAfter(a: string, pat: string, b: string, rep: string)
    requires |pat| > 0 && pat[0] !in a
    ensures ReplaceFirst(a + pat + b, pat, rep) == a + rep + b
  {
    var s := a + pat + b;
    forall j | 0 <= j < |a| ensures !OccursAt(s, pat, j) {
      assert s[j] == a[j] != pat[0];
      assert j + |pat| <= |s| ==> s[j..j + |pat|][0] == s[j];
    }
    assert OccursAt(s, pat, |a|) by { assert s[|a|..|a| + |pat|] == pat; }
    assert IndexOf(s, pat) == Some(|a|);
    assert s[..|a|] == a;
    assert s[|a| + |pat|..] == b;
  }

  /** Replaying a pump-table template for the pump declared as `name`
      yields the key `Pumps.<name>_<inner>`, the environment name with the
      upper-cased name and the JSON path with the lower-cased name, as long
      as no `{` precedes the placeholder. */
  lemma ReplayPumpTableChild(map': string, json: string, pumpPrefix: string, v: Node, name: string)
    requires '{' !in pumpPrefix && '{' !in json
    ensures Replay(Child(TypeChild, PumpsKey, map', json, pumpPrefix, pumpPrefix, v), name).key
            == "Pumps." + name + "_" + v.key
    ensures Replay(Child(TypeChild, PumpsKey, map', json, pumpPrefix, pumpPrefix, v), name).env
            == Some(pumpPrefix + "_PUMPS_" + Upper(name) + "_" + Upper(v.key))
    ensures Replay(Child(TypeChild, PumpsKey, map', json, pumpPrefix, pumpPrefix, v), name).json
            == json + "." + Lower(name) + "." + v.json
    ensures Replay(Child(TypeChild, PumpsKey, map', json, pumpPrefix, pumpPrefix, v), name).typ == v.typ
    ensures Replay(Child(TypeChild, PumpsKey, map', json, pumpPrefix, pumpPrefix, v), name).required.None?
  {
    PumpTableChild(map', json, pumpPrefix, v);
    var c := Child(TypeChild, PumpsKey, map', json, pumpPrefix, pumpPrefix, v);
    ReplayedKey(c, v.key, name);
    ReplayedEnv(c, pumpPrefix, Upper(v.key), name);
    ReplayedJson(c, json, v.json, name);
  }

  lemma ReplayedKey(c: Node, k: string, name: string)
    requires c.key == "Pumps.{PMP_NAME}_" + k
    ensures Replay(c, name).key == "Pumps." + name + "_" + k
  {
    assert c.key == "Pumps." + Placeholder + ("_" + k);
    ReplaceAfter("Pumps.", "_" + k, name, c.key);
  }

  lemma ReplayedEnv(c: Node, pumpPrefix: string, k: string, name: string)
    requires '{' !in pumpPrefix
    requires c.env == Some(pumpPrefix + "_PUMPS_{PMP_NAME}_" + k)
    ensures Replay(c, name).env == Some(pumpPrefix + "_PUMPS_" + Upper(name) + "_" + k)
  {
    var a := pumpPrefix + "_PUMPS_";
    assert c.env.value == a + Placeholder + ("_" + k);
    ReplaceAfter(a, "_" + k, Upper(name), c.env.value);
    var u := Upper(name);
    assert a + u + ("_" + k) == pumpPrefix + "_PUMPS_" + u + "_" + k;
  }

  lemma ReplayedJson(c: Node, json: string, j: string, name: string)
    requires '{' !in json
    requires c.json == json + ".{PMP_NAME}." + j
    ensures Replay(c, name).json == json + "." + Lower(name) + "." + j
  {
    assert c.json == (json + ".") + Placeholder + ("." + j);
    ReplaceAfter(json + ".", "." + j, Lower(name), c.json);
  }

  /** Replacing the placeholder in `a + "{PMP_NAME}" + b`, when `a` has no
      `{`, puts the replacement exactly between `a` and `b`. */
  lemma ReplaceAfter(a: string, b: string, rep: string, s: string)
    requires '{' !in a
    requires s == a + Placeholder + b
    ensures ReplaceFirst(s, Placeholder, rep) == a + rep + b
  {
    FirstOccurrenceAfter(a, Placeholder, b, rep);
  }
}

=== FILE: engine.dfy ===
/** The flattening engine: locate a struct, inline its nested blocks,
    expand its directives, resolve its fields, classify each field's type
    and build the output nodes, recursing into the structs the types name.

    The source recurses without bound (a struct that refers to itself never
    finishes), so every function takes `fuel`, which `GetStruct` spends;
    running out is the error `OutOfFuel`. Calling `.map`/`.forEach` on a
    struct that was not found, or reading the pump declaration of a pump
    file without one, throws in the source; here it is the error `Crash`.
    As written, a tagged nested block whose tag carries `,omitempty` is
    selected but never replaced, and the rewrite loop spins for ever; here
    that is the error `Diverges`. The pump-template accumulator, a
    file-scoped array in the source, is passed in and handed back with
    every result. */
module Engine {
  import opened Strings
  import opened Schema
  import opened Fields
  import opened Nodes

  datatype Error = Crash | OutOfFuel | Diverges

  /** A value together with the pump-template accumulator after the call. */
  datatype Res<T> = Ok(value: T, pumps: seq<Node>) | Err(error: Error)

  /** What stays fixed during one run: the dependency table (pump files
      included), the pump product's environment prefix, and the dialect. */
  datatype Run = Run(deps: Deps, pumpPrefix: string, dialect: Dialect)

  /** The nodes a field's children contribute, and the value the source's
      `json` variable holds afterwards (the pump branch overwrites it). */
  datatype Kids = Kids(nodes: seq<Node>, json: string)

  /** The accumulator is append-only, and only templates are appended. */
  ghost predicate Grows<T>(acc: seq<Node>, r: Res<T>) {
    r.Ok? ==> acc <= r.pumps && forall i :: |acc| <= i < |r.pumps| ==> IsTemplate(r.pumps[i])
  }

  lemma GrowsTrans<T, U>(a: seq<Node>, r1: Res<T>, r2: Res<U>)
    requires r1.Ok? && Grows(a, r1) && Grows(r1.pumps, r2)
    ensures Grows(a, r2)
  {
  }

  /** The lines a nested block's variables are inlined into. */
  function InlineLines(tagged: bool, key: string, json: string, vs: seq<Node>): (r: seq<Line>)
    ensures |r| == |vs| && forall k {:trigger r[k]} :: 0 <= k < |vs| ==> r[k] == InlineLine(tagged, key, json, vs[k])
  {
    seq(|vs|, k requires 0 <= k < |vs| => InlineLine(tagged, key, json, vs[k]))
  }

  /** The lines a directive is expanded into. */
  function ExpandLines(vs: seq<Node>): (r: seq<Line>)
    ensures |r| == |vs| && forall k {:trigger r[k]} :: 0 <= k < |vs| ==> r[k] == ExpandLine(vs[k])
  {
    seq(|vs|, k requires 0 <= k < |vs| => ExpandLine(vs[k]))
  }

  /** The child nodes built from the inner variables `vs` of one field. */
  function Children(kind: ChildKind, key: string, map': string, json: string, prefix: string,
                    pumpPrefix: string, vs: seq<Node>): (r: seq<Node>)
    ensures |r| == |vs|
    ensures forall k {:trigger r[k]} :: 0 <= k < |vs| ==> r[k] == Child(kind, key, map', json, prefix, pumpPrefix, vs[k])
  {
    seq(|vs|, k requires 0 <= k < |vs| => Child(kind, key, map', json, prefix, pumpPrefix, vs[k]))
  }

  /** The templates `ts` replayed for the pump declared as `name`. */
  function Replays(ts: seq<Node>, name: string): (r: seq<Node>)
    ensures |r| == |ts| && forall i {:trigger r[i]} :: 0 <= i < |ts| ==> r[i] == Replay(ts[i], name)
  {
    seq(|ts|, i requires 0 <= i < |ts| => Replay(ts[i], name))
  }

  /** The field lines of a body, in order. */
  function FieldLines(items: seq<Item>): seq<Line> {
    if |items| == 0 then []
    else (if items[0].FieldItem? then [items[0].line] else []) + FieldLines(items[1..])
  }

  function AsItems(lines: seq<Line>): (r: seq<Item>)
    ensures |r| == |lines|
    ensures forall k :: 0 <= k < |r| ==> r[k] == FieldItem(lines[k])
  {
    seq(|lines|, k requires 0 <= k < |lines| => FieldItem(lines[k]))
  }

  /** The struct an expand directive names: the last dotted segment. */
  function LastSegment(s: string): string {
    var parts := Split(s, '.');
    parts[|parts| - 1]
  }

  /** The struct a dependency-typed field names: the type without its first
      `*`, and of a dotted type its second segment. */
  function DependencyStruct(t: string): string {
    var t' := ReplaceFirst(t, "*", "");
    var parts := Split(t', '.');
    if |parts| >= 2 then parts[1] else t'
  }

  /** A type used as a pattern: a leading `*` repeats the space in front
      of it, so `*S` (and `[]*S`) find the declaration of `S`. */
  function Deref(t: string): (r: string)
    ensures |t| > 0 && t[0] == '*' ==> t == "*" + r
    ensures !(|t| > 0 && t[0] == '*') ==> r == t
  {
    if |t| > 0 && t[0] == '*' then t[1..] else t
  }

  /** `testVariableRegex(t, data)`: the type names a struct of the file. */
  predicate InFile(t: string, data: Blob) {
    Deref(t) in data.structs
  }

  /** `t` is `[]` followed by a type naming a struct of the file. */
  predicate SliceInFile(t: string, data: Blob) {
    |t| >= 2 && t[..2] == "[]" && InFile(t[2..], data)
  }

  /** The environment prefix of a pump's own fields. */
  function MetaPrefix(name: string): string {
    "TYK_PMP_PUMPS_" + Upper(name) + "_META"
  }

  predicate IsPumpKey(k: string) {
    |k| >= 6 && k[..6] == "pumps."
  }

  /** `getStruct`: `None` when `name` is not declared in `data`. */
  function GetStruct(fuel: nat, run: Run, name: string, data: Blob, prefix: string, acc: seq<Node>)
    : (r: Res<Option<seq<Node>>>)
    ensures Grows(acc, r)
    ensures run.dialect == Corrected ==> r != Err(Diverges)
    ensures name !in data.structs ==> r == Ok(None, acc)
    ensures name in data.structs && r.Ok? ==> r.value.Some?
    decreases fuel, 0, 0
  {
    if name !in data.structs then Ok(None, acc)
    else if fuel == 0 then Err(OutOfFuel)
    else
      var vars := ResolveBody(fuel - 1, run, data.structs[name], data, prefix, acc);
      if vars.Err? then Err(vars.error) else Ok(Some(vars.value), vars.pumps)
  }

  /** The variables of a struct body: inline the tagged nested blocks, then
      the untagged ones, expand the directives, and resolve the field lines
      that remain. */
  function ResolveBody(fuel: nat, run: Run, items: seq<Item>, data: Blob, prefix: string, acc: seq<Node>)
    : (r: Res<seq<Node>>)
    ensures Grows(acc, r)
    ensures run.dialect == Corrected ==> r != Err(Diverges)
    decreases fuel, 7, 0
  {
    var withJson := InlinePass(fuel, run, true, items, data, prefix, acc);
    if withJson.Err? then Err(withJson.error)
    else
      var withoutJson := InlinePass(fuel, run, false, withJson.value, data, prefix, withJson.pumps);
      if withoutJson.Err? then Err(withoutJson.error)
      else
        var expanded := ExpandPass(fuel, run, withoutJson.value, prefix, [], withoutJson.pumps);
        if expanded.Err? then Err(expanded.error)
        else
          var vars := GetVariables(fuel, run, FieldLines(expanded.value), data, prefix, expanded.pumps);
          if vars.Err? then Err(vars.error)
          else
            GrowsTrans(acc, withJson, withoutJson);
            GrowsTrans(acc, withoutJson, expanded);
            GrowsTrans(acc, expanded, vars);
            vars
  }

  /** As written, the pattern that replaces a tagged block spells its tag
      without `,omitempty`, so such a block is selected again and again:
      each turn resolves its body (and a failure there ends the loop), and
      then replaces nothing. */
  predicate Stuck(d: Dialect, tagged: bool, it: Item) {
    d == AsWritten && tagged && it.NestedItem? && it.tag.Some? && it.tag.value.omitEmpty
  }

  function InlinePass(fuel: nat, run: Run, tagged: bool, items: seq<Item>, data: Blob, prefix: string,
                      acc: seq<Node>): (r: Res<seq<Item>>)
    ensures Grows(acc, r)
    ensures run.dialect == Corrected ==> r != Err(Diverges)
    ensures r.Ok? ==> NoBlockOf(tagged, r.value)
    ensures NoBlockOf(tagged, items) ==> r == Ok(items, acc)
    decreases fuel, 6, |items|
  {
    if |items| == 0 then Ok([], acc)
    else
      var it := items[0];
      if it.NestedItem? && it.tag.Some? == tagged then
        var inner := GetVariables(fuel, run, BlockLines(run.dialect, it.comment, it.key, it.body), data, prefix, acc);
        if inner.Err? then Err(inner.error)
        else if Stuck(run.dialect, tagged, it) then Err(Diverges)
        else
          var json := if it.tag.Some? then it.tag.value.json else "";
          var lines := InlineLines(tagged, it.key, json, inner.value);
          var rest := InlinePass(fuel, run, tagged, items[1..], data, prefix, inner.pumps);
          if rest.Err? then Err(rest.error)
          else
            GrowsTrans(acc, inner, rest);
            FieldsThenNoBlock(tagged, lines, rest.value);
            Ok(AsItems(lines) + rest.value, rest.pumps)
      else
        var rest := InlinePass(fuel, run, tagged, items[1..], data, prefix, acc);
        Cons(items);
        NoBlockTail(tagged, items);
        if rest.Err? then Err(rest.error)
        else
          FirstThenNoBlock(tagged, it, rest.value);
          Ok([it] + rest.value, rest.pumps)
  }

  lemma Cons<T>(s: seq<T>)
    requires |s| > 0
    ensures [s[0]] + s[1..] == s
  {
  }

  /** No nested block of the kind a pass replaces (tagged or untagged). */
  predicate NoBlockOf(tagged: bool, items: seq<Item>) {
    forall i :: 0 <= i < |items| && items[i].NestedItem? ==> items[i].tag.Some? != tagged
  }

  /** No expand directive. */
  predicate NoDirective(items: seq<Item>) {
    forall i :: 0 <= i < |items| ==> !items[i].ExpandItem?
  }

  lemma NoBlockTail(tagged: bool, items: seq<Item>)
    requires |items| > 0
    ensures NoBlockOf(tagged, items) ==> NoBlockOf(tagged, items[1..])
  {
    if NoBlockOf(tagged, items) {
      forall i | 0 <= i < |items| - 1 && items[1..][i].NestedItem?
        ensures items[1..][i].tag.Some? != tagged
      {
        assert items[1..][i] == items[i + 1];
      }
    }
  }

  lemma FieldsThenNoBlock(tagged: bool, lines: seq<Line>, rest: seq<Item>)
    requires NoBlockOf(tagged, rest)
    ensures NoBlockOf(tagged, AsItems(lines) + rest)
  {
    var out := AsItems(lines) + rest;
    forall i | 0 <= i < |out| && out[i].NestedItem?
      ensures out[i].tag.Some? != tagged
    {
      assert out[i] == rest[i - |lines|];
    }
  }

  lemma FirstThenNoBlock(tagged: bool, it: Item, rest: seq<Item>)
    requires !(it.NestedItem? && it.tag.Some? == tagged) && NoBlockOf(tagged, rest)
    ensures NoBlockOf(tagged, [it] + rest)
  {
    var out := [it] + rest;
    forall i | 1 <= i < |out| && out[i].NestedItem?
      ensures out[i].tag.Some? != tagged
    {
      assert out[i] == rest[i - 1];
    }
  }

  lemma NoDirectiveTail(items: seq<Item>)
    requires |items| > 0
    ensures NoDirective(items) ==> NoDirective(items[1..])
  {
    if NoDirective(items) {
      forall i | 0 <= i < |items| - 1
        ensures !items[1..][i].ExpandItem?
      {
        assert items[1..][i] == items[i + 1];
      }
    }
  }

  lemma FieldsThenNoDirective(lines: seq<Line>, rest: seq<Item>)
    requires NoDirective(rest)
    ensures NoDirective(AsItems(lines) + rest)
  {
    var out := AsItems(lines) + rest;
    forall i | |lines| <= i < |out|
      ensures !out[i].ExpandItem?
    {
      assert out[i] == rest[i - |lines|];
    }
  }

  lemma FirstThenNoDirective(it: Item, rest: seq<Item>)
    requires !it.ExpandItem? && NoDirective(rest)
    ensures NoDirective([it] + rest)
  {
    var out := [it] + rest;
    forall i | 1 <= i < |out|
      ensures !out[i].ExpandItem?
    {
      assert out[i] == rest[i - 1];
    }
  }

  /** `expandStruct`: replace each directive by the lines of the named
      dependency's variables. A directive whose dependency is missing is
      replaced by whatever the previous directive produced (`parsed`). When
      it is the first, the source inserts the text `undefined`, which holds
      no field line, and the field line after the directive is still read,
      so here it is replaced by no lines. */
  function ExpandPass(fuel: nat, run: Run, items: seq<Item>, prefix: string, parsed: seq<Line>,
                      acc: seq<Node>): (r: Res<seq<Item>>)
    ensures Grows(acc, r)
    ensures run.dialect == Corrected ==> r != Err(Diverges)
    ensures r.Ok? ==> NoDirective(r.value)
    ensures NoDirective(items) ==> r == Ok(items, acc)
    decreases fuel, 6, |items|
  {
    if |items| == 0 then Ok([], acc)
    else if items[0].ExpandItem? then
      match Lookup(run.deps, items[0].target)
      case Some(blob) =>
        var got := GetStruct(fuel, run, LastSegment(items[0].target), blob, prefix, acc);
        if got.Err? then Err(got.error)
        else if got.value.None? then Err(Crash)
        else
          var vs := got.value.value;
          var lines := ExpandLines(vs);
          var rest := ExpandPass(fuel, run, items[1..], prefix, lines, got.pumps);
          if rest.Err? then Err(rest.error)
          else
            GrowsTrans(acc, got, rest);
            FieldsThenNoDirective(lines, rest.value);
            Ok(AsItems(lines) + rest.value, rest.pumps)
      case None =>
        var rest := ExpandPass(fuel, run, items[1..], prefix, parsed, acc);
        if rest.Err? then Err(rest.error)
        else
          FieldsThenNoDirective(parsed, rest.value);
          Ok(AsItems(parsed) + rest.value, rest.pumps)
    else
      var rest := ExpandPass(fuel, run, items[1..], prefix, parsed, acc);
      Cons(items);
      NoDirectiveTail(items);
      if rest.Err? then Err(rest.error)
      else
        FirstThenNoDirective(items[0], rest.value);
        Ok([items[0]] + rest.value, rest.pumps)
  }

  /** `getVariables`: resolve the recognised lines, tagged ones first. A
      body with no recognised line yields no nodes. */
  function GetVariables(fuel: nat, run: Run, lines: seq<Line>, data: Blob, prefix: string,
                        acc: seq<Node>): (r: Res<seq<Node>>)
    ensures Grows(acc, r)
    ensures run.dialect == Corrected ==> r != Err(Diverges)
    ensures RecognisedLines(run.dialect, lines) == [] ==> r == Ok([], acc)
    decreases fuel, 5, 0
  {
    OrderedFields(run.dialect, lines);
    ResolveAll(fuel, run, Ordered(run.dialect, lines), data, prefix, acc)
  }

  /** `getVariablesHelper`: the nodes of each line, concatenated in order. */
  function ResolveAll(fuel: nat, run: Run, lines: seq<Line>, data: Blob, prefix: string,
                      acc: seq<Node>): (r: Res<seq<Node>>)
    ensures Grows(acc, r)
    ensures run.dialect == Corrected ==> r != Err(Diverges)
    ensures lines == [] ==> r == Ok([], acc)
    ensures r.Ok? ==> |r.value| >= |lines|
    decreases fuel, 4, |lines|
  {
    if |lines| == 0 then Ok([], acc)
    else
      var first := Classify(fuel, run, lines[0], data, prefix, acc);
      if first.Err? then Err(first.error)
      else
        var rest := ResolveAll(fuel, run, lines[1..], data, prefix, first.pumps);
        if rest.Err? then Err(rest.error)
        else
          GrowsTrans(acc, first, rest);
          Ok(first.value + rest.value, rest.pumps)
  }

  /** The classification cascade for one field, first match wins: a struct
      of the same file, a slice of such a struct, a dependency type, and
      otherwise a scalar. A leading map declarator is split off first. */
  function Classify(fuel: nat, run: Run, l: Line, data: Blob, prefix: string, acc: seq<Node>)
    : (r: Res<seq<Node>>)
    ensures Grows(acc, r)
    ensures run.dialect == Corrected ==> r != Err(Diverges)
    ensures r.Ok? ==> |r.value| >= 1 && r.value[0].key == l.name && r.value[0].description == Description(l)
    ensures r.Ok? ==> (r.value[0].flavour == Some(Header) <==>
                        var t := SplitMap(l.typ).1;
                        InFile(t, data) || (!SliceInFile(t, data) && Lookup(run.deps, t).Some?))
    decreases fuel, 3, 1
  {
    var map' := SplitMap(l.typ).0;
    var t := SplitMap(l.typ).1;
    if InFile(t, data) then StructNodes(fuel, run, l, data, prefix, acc)
    else if SliceInFile(t, data) then ArrayNodes(fuel, run, l, data, prefix, acc)
    else if Lookup(run.deps, t).Some? then DependencyNodes(fuel, run, l, Lookup(run.deps, t).value, prefix, acc)
    else Ok([ScalarNode(Read(l), map', t, prefix)], acc)
  }

  /** A field whose type is a struct of the same file: a header, then the
      struct's variables as children. */
  function StructNodes(fuel: nat, run: Run, l: Line, data: Blob, prefix: string, acc: seq<Node>)
    : (r: Res<seq<Node>>)
    requires InFile(SplitMap(l.typ).1, data)
    ensures Grows(acc, r)
    ensures run.dialect == Corrected ==> r != Err(Diverges)
    ensures r.Ok? ==> |r.value| >= 1 && r.value[0].key == l.name && r.value[0].description == Description(l)
    ensures r.Ok? ==> r.value[0].flavour == Some(Header)
    decreases fuel, 3, 0
  {
    var f := Read(l);
    var map' := SplitMap(l.typ).0;
    var t := SplitMap(l.typ).1;
    var got := GetStruct(fuel, run, Deref(t), data, prefix, acc);
    if got.Err? then Err(got.error)
    else if got.value.None? then Err(Crash)
    else
      var kids := ChildNodes(fuel, run, got.value.value, f.key, map', f.json, prefix, got.pumps);
      if kids.Err? then Err(kids.error)
      else
        GrowsTrans(acc, got, kids);
        Ok([HeaderNode(f, kids.value.json, t)] + kids.value.nodes, kids.pumps)
  }

  /** A field whose type is a slice of a struct of the same file: one
      variable with the struct's variables nested. */
  function ArrayNodes(fuel: nat, run: Run, l: Line, data: Blob, prefix: string, acc: seq<Node>)
    : (r: Res<seq<Node>>)
    requires SliceInFile(SplitMap(l.typ).1, data)
    ensures Grows(acc, r)
    ensures run.dialect == Corrected ==> r != Err(Diverges)
    ensures r.Ok? ==> |r.value| == 1 && r.value[0].key == l.name && r.value[0].description == Description(l)
    ensures r.Ok? ==> r.value[0].flavour == Some(Variable)
    decreases fuel, 3, 0
  {
    var f := Read(l);
    var map' := SplitMap(l.typ).0;
    var t := SplitMap(l.typ).1;
    var got := GetStruct(fuel, run, Deref(t[2..]), data, prefix, acc);
    if got.Err? then Err(got.error)
    else if got.value.None? then Err(Crash)
    else
      var vs := got.value.value;
      var nested := Children(ArrayChild, f.key, map', f.json, prefix, run.pumpPrefix, vs);
      Ok([ArrayNode(f, t, nested)], got.pumps)
  }

  /** A field whose type names a dependency: a header, then one child per
      variable of the dependency's struct. */
  function DependencyNodes(fuel: nat, run: Run, l: Line, b: Blob, prefix: string, acc: seq<Node>)
    : (r: Res<seq<Node>>)
    ensures Grows(acc, r)
    ensures run.dialect == Corrected ==> r != Err(Diverges)
    ensures r.Ok? ==> |r.value| >= 1 && r.value[0].key == l.name && r.value[0].description == Description(l)
    ensures r.Ok? ==> r.value[0].flavour == Some(Header)
    decreases fuel, 3, 0
  {
    var f := Read(l);
    var map' := SplitMap(l.typ).0;
    var t := SplitMap(l.typ).1;
    var got := GetStruct(fuel, run, DependencyStruct(t), b, prefix, acc);
    if got.Err? then Err(got.error)
    else if got.value.None? then Err(Crash)
    else
      var vs := got.value.value;
      var children := Children(TypeChild, f.key, map', f.json, prefix, run.pumpPrefix, vs);
      Ok([HeaderNode(f, f.json, t)] + children, got.pumps)
  }

  /** The children of a same-file struct field: each inner variable becomes
      a child node, except that templates go to the accumulator and the
      pump-meta sentinel is replaced by the nodes of every pump. */
  function ChildNodes(fuel: nat, run: Run, kids: seq<Node>, key: string, map': string, json: string,
                      prefix: string, acc: seq<Node>): (r: Res<Kids>)
    ensures Grows(acc, r)
    ensures run.dialect == Corrected ==> r != Err(Diverges)
    decreases fuel, 2, |kids|
  {
    if |kids| == 0 then Ok(Kids([], json), acc)
    else if kids[0].env == Some(MetaEnv) then
      var pumps := PumpNodes(fuel, run, run.deps, json, acc);
      if pumps.Err? then Err(pumps.error)
      else
        var rest := ChildNodes(fuel, run, kids[1..], key, map', pumps.value.json, prefix, pumps.pumps);
        if rest.Err? then Err(rest.error)
        else
          GrowsTrans(acc, pumps, rest);
          Ok(Kids(pumps.value.nodes + rest.value.nodes, rest.value.json), rest.pumps)
    else
      var v := Child(TypeChild, key, map', json, prefix, run.pumpPrefix, kids[0]);
      if IsTemplate(v) then
        var rest := ChildNodes(fuel, run, kids[1..], key, map', json, prefix, acc + [v]);
        assert rest.Ok? ==> rest.pumps[|acc|] == v;
        rest
      else
        var rest := ChildNodes(fuel, run, kids[1..], key, map', json, prefix, acc);
        if rest.Err? then Err(rest.error) else Ok(Kids([v] + rest.value.nodes, rest.value.json), rest.pumps)
  }

  /** The pump-meta sentinel: for every `pumps.*` dependency, in table
      order, the accumulated templates replayed for that pump, then the
      pump's own fields under `pumps.<name>.meta.`. Afterwards `json` holds
      the last pump's lower-case name. */
  function PumpNodes(fuel: nat, run: Run, deps: Deps, json: string, acc: seq<Node>): (r: Res<Kids>)
    ensures Grows(acc, r)
    ensures run.dialect == Corrected ==> r != Err(Diverges)
    decreases fuel, 1, |deps|
  {
    if |deps| == 0 then Ok(Kids([], json), acc)
    else if !IsPumpKey(deps[0].0) then PumpNodes(fuel, run, deps[1..], json, acc)
    else if deps[0].1.pumpConf.None? then Err(Crash)
    else
      var blob := deps[0].1;
      var name := blob.pumpConf.value.kind;
      var replayed := Replays(acc, name);
      var own := GetStruct(fuel, run, blob.pumpConf.value.structName, blob, MetaPrefix(name), acc);
      if own.Err? then Err(own.error)
      else if own.value.None? then Err(Crash)
      else
        var vs := own.value.value;
        var mine := Children(PumpChild, Lower(name), "", "", PumpFieldPrefix, run.pumpPrefix, vs);
        var rest := PumpNodes(fuel, run, deps[1..], Lower(name), own.pumps);
        if rest.Err? then Err(rest.error)
        else
          GrowsTrans(acc, own, rest);
          Ok(Kids(replayed + mine + rest.value.nodes, rest.value.json), rest.pumps)
  }
}

=== FILE: fields.dfy ===
/** The field resolver: which lines the generator's field patterns
    recognise, what it reads off each recognised line, and in which order
    the fields of a struct body are visited. Also the field lines the
    generator writes back into a struct body when it inlines a nested
    struct or expands a directive, since those are lexed again by the same
    patterns. */
module Fields {
  import opened Strings
  import opened Schema

  /** Characters of a field name. As written the name pattern is `[_\w]+`;
      the corrected dialect also admits `.`, so that inlined names survive. */
  predicate KeyChar(d: Dialect, c: char) {
    IsWordChar(c) || (d == Corrected && c == '.')
  }

  /** Characters of a declared type: `[{}*.\[\]\w]`. */
  predicate TypeChar(c: char) {
    IsWordChar(c) || c == '{' || c == '}' || c == '*' || c == '.' || c == '[' || c == ']'
  }

  /** Characters of a JSON tag name: `[-.\w]`. */
  predicate JsonChar(c: char) {
    IsWordChar(c) || c == '-' || c == '.'
  }

  /** Characters allowed after `//` on a comment line. The class is written
      with `%-\>` in it, which is the range from `%` to `>`. */
  predicate CommentChar(c: char) {
    || c == ' ' || ('%' <= c <= '>') || c == '}' || c == '{' || c == '#' || c == '"'
    || c == '`' || c == '\U{2019}' || c == '\U{201C}' || c == '\U{201D}' || c == '*'
    || c == '?' || c == '\'' || c == ':' || c == '/' || c == '(' || c == ')' || c == '['
    || c == ']' || c == '.' || c == '@' || c == ',' || IsWordChar(c)
  }

  predicate ValidComment(s: string) {
    forall i :: 0 <= i < |s| ==> CommentChar(s[i])
  }

  /** The comment lines the comment pattern attaches to a field: the longest
      run of well-formed comment lines directly above it. */
  function AttachedComment(c: seq<string>): (r: seq<string>)
    ensures |r| <= |c| && r == c[|c| - |r|..]
    ensures forall k :: 0 <= k < |r| ==> ValidComment(r[k])
    ensures |r| < |c| ==> !ValidComment(c[|c| - |r| - 1])
  {
    if |c| == 0 then []
    else if ValidComment(c[|c| - 1]) then AttachedComment(c[..|c| - 1]) + [c[|c| - 1]]
    else []
  }

  /** The JSON tag the tagged-field pattern accepts: a non-empty name made of
      tag characters. A line whose tag is malformed is read as untagged. */
  function AcceptedTag(t: Option<Tag>): (r: Option<Tag>)
    ensures r.Some? ==> t == r && |r.value.json| > 0
  {
    if t.Some? && |t.value.json| > 0 && (forall i :: 0 <= i < |t.value.json| ==> JsonChar(t.value.json[i]))
    then t else None
  }

  /** A line the field patterns match: a non-empty name and a non-empty type
      made of their respective characters. */
  predicate Recognised(d: Dialect, l: Line) {
    && |l.name| > 0
    && (forall i :: 0 <= i < |l.name| ==> KeyChar(d, l.name[i]))
    && |l.typ| > 0
    && (forall i :: 0 <= i < |l.typ| ==> TypeChar(l.typ[i]))
  }

  predicate IsTagged(l: Line) {
    AcceptedTag(l.tag).Some?
  }

  /** A description line loses one leading space. */
  function StripOneSpace(s: string): string {
    if |s| > 0 && s[0] == ' ' then s[1..] else s
  }

  function DescriptionLines(l: Line): seq<string> {
    var c := AttachedComment(l.comment);
    seq(|c|, k requires 0 <= k < |c| => StripOneSpace(c[k]))
  }

  /** The description: the attached comment lines, each without its `//`
      and one leading space, joined by newlines; absent without a comment. */
  function Description(l: Line): Option<string> {
    var ls := DescriptionLines(l);
    if |ls| == 0 then None else Some(Join(ls, '\n'))
  }

  /** The JSON name: the tag when there is one, otherwise the field name
      with its first `_` turned into `.`. */
  function JsonName(l: Line): string {
    match AcceptedTag(l.tag)
    case Some(t) => t.json
    case None => ReplaceFirst(l.name, "_", ".")
  }

  /** A field is required unless its tag says `omitempty`. */
  predicate Required(l: Line) {
    !(AcceptedTag(l.tag).Some? && AcceptedTag(l.tag).value.omitEmpty)
  }

  function Read(l: Line): Field {
    Field(Description(l), l.name, l.typ, JsonName(l), Required(l))
  }

  /** First pass: the recognised tagged lines, in source order. */
  function TaggedLines(d: Dialect, ls: seq<Line>): seq<Line> {
    if |ls| == 0 then []
    else (if Recognised(d, ls[0]) && IsTagged(ls[0]) then [ls[0]] else []) + TaggedLines(d, ls[1..])
  }

  /** Second pass: the recognised untagged lines, in source order. */
  function UntaggedLines(d: Dialect, ls: seq<Line>): seq<Line> {
    if |ls| == 0 then []
    else (if Recognised(d, ls[0]) && !IsTagged(ls[0]) then [ls[0]] else []) + UntaggedLines(d, ls[1..])
  }

  /** The order in which the fields of a body are visited. */
  function Ordered(d: Dialect, ls: seq<Line>): seq<Line> {
    TaggedLines(d, ls) + UntaggedLines(d, ls)
  }

  /** All recognised lines, in source order: the reference the two passes
      are compared with. */
  function RecognisedLines(d: Dialect, ls: seq<Line>): seq<Line> {
    if |ls| == 0 then []
    else (if Recognised(d, ls[0]) then [ls[0]] else []) + RecognisedLines(d, ls[1..])
  }

  /** The comment line written above a synthesised field: the trimmed
      description, when there is a non-empty one. */
  function SynthComment(description: Option<string>): seq<string> {
    if description.Some? && description.value != "" then [" " + Trim(description.value)] else []
  }

  /** The line that replaces one inner variable of a nested block `key`
      (with JSON name `json` when the block is tagged). */
  function InlineLine(tagged: bool, key: string, json: string, v: Node): Line {
    Line(SynthComment(v.description), key + "." + v.key, v.typ,
         if tagged then Some(Tag(json + "." + v.json, false)) else None)
  }

  /** The line that replaces one variable of an expanded dependency: its own
      key and JSON path, not prefixed. */
  function ExpandLine(v: Node): Line {
    Line(SynthComment(v.description), v.key, v.typ, Some(Tag(v.json, false)))
  }

  /** The lines the field patterns see when a nested block is resolved on
      its own. The block's text starts at the first comment line attached
      to it, and only its first and last text lines are dropped, so as
      written a block with an attached comment keeps its own `Key struct {`
      line, which reads as a field of type `struct` carrying the remaining
      attached comments. */
  function BlockLines(d: Dialect, comment: seq<string>, key: string, body: seq<Line>): seq<Line> {
    var attached := AttachedComment(comment);
    (if d == AsWritten && |attached| > 0 then [Line(attached[1..], key, "struct", None)] else []) + body
  }

  /** A comment line has no newline in it, and neither has its description line. */
  lemma DescriptionLineHasNoNewline(s: string)
    requires ValidComment(s)
    ensures '\n' !in StripOneSpace(s)
  {
    var t := StripOneSpace(s);
    forall k | 0 <= k < |t| ensures t[k] != '\n' {
      var j := if |s| > 0 && s[0] == ' ' then k + 1 else k;
      assert t[k] == s[j];
      assert CommentChar(s[j]);
    }
  }

  /** What the resolver reads off a line: the description is absent exactly
      when no comment is attached, and splitting it at newlines gives back
      one line per attached comment line, each without `//` and one leading
      space; the JSON name is the accepted tag or the defaulted name; the
      field is required exactly when `omitempty` is absent. */
  lemma {:induction false} FieldMetadata(l: Line)
    ensures Read(l).description.None? <==> |AttachedComment(l.comment)| == 0
    ensures |DescriptionLines(l)| == |AttachedComment(l.comment)|
    ensures forall k :: 0 <= k < |DescriptionLines(l)| ==>
              DescriptionLines(l)[k] == StripOneSpace(AttachedComment(l.comment)[k])
    ensures Read(l).description.Some? ==> Split(Read(l).description.value, '\n') == DescriptionLines(l)
    ensures IsTagged(l) ==> Read(l).json == l.tag.value.json
    ensures !IsTagged(l) ==> Read(l).json == ReplaceFirst(l.name, "_", ".")
    ensures Read(l).required <==> !(IsTagged(l) && l.tag.value.omitEmpty)
  {
    var ls := DescriptionLines(l);
    var c := AttachedComment(l.comment);
    if |ls| > 0 {
      forall k | 0 <= k < |ls| ensures '\n' !in ls[k] {
        DescriptionLineHasNoNewline(c[k]);
      }
      SplitJoin(ls, '\n');
    }
  }

  /** The comment written above a synthesised line reads back as the
      description it was written from, trimmed. */
  lemma SynthCommentRead(l: Line, d: string)
    requires d != "" && ValidComment(Trim(d))
    requires l.comment == SynthComment(Some(d))
    ensures Description(l) == Some(Trim(d))
  {
    SpacedCommentRead(l, Trim(d));
  }

  lemma SpacedCommentRead(l: Line, x: string)
    requires ValidComment(x) && l.comment == [" " + x]
    ensures Description(l) == Some(x)
  {
    var s := " " + x;
    SpacedComment(x);
    OneAttached(s);
    OneDescriptionLine(l, s);
    StripSpace(x);
  }

  lemma OneDescriptionLine(l: Line, s: string)
    requires AttachedComment(l.comment) == [s]
    ensures DescriptionLines(l) == [StripOneSpace(s)]
  {
    FieldMetadata(l);
  }

  lemma StripSpace(x: string)
    ensures StripOneSpace(" " + x) == x
  {
    assert (" " + x)[1..] == x;
  }

  lemma SpacedComment(x: string)
    requires ValidComment(x)
    ensures ValidComment(" " + x)
  {
    var s := " " + x;
    forall i | 0 <= i < |s| ensures CommentChar(s[i]) {
      if i > 0 {
        assert s[i] == x[i - 1];
      }
    }
  }

  lemma OneAttached(s: string)
    requires ValidComment(s)
    ensures AttachedComment([s]) == [s]
  {
    assert [s][..0] == [];
  }

  /** An untagged field's JSON name is its name with the first `_`, and only
      that one, turned into `.`; a name without `_` is its own JSON name. */
  lemma DefaultJsonName(l: Line)
    requires !IsTagged(l)
    ensures |JsonName(l)| == |l.name|
    ensures forall k :: 0 <= k < |l.name| && l.name[k] != '_' ==> JsonName(l)[k] == l.name[k]
    ensures '_' in l.name ==>
              exists k ::
                && 0 <= k < |l.name| && l.name[k] == '_' && JsonName(l)[k] == '.'
                && (forall j :: 0 <= j < k ==> l.name[j] != '_')
    ensures '_' !in l.name ==> JsonName(l) == l.name
  {
    assert "_" == ['_'];
    assert "." == ['.'];
    ReplaceFirstChar(l.name, '_', '.');
  }

  lemma {:induction false} TaggedAppend(d: Dialect, a: seq<Line>, b: seq<Line>)
    ensures TaggedLines(d, a + b) == TaggedLines(d, a) + TaggedLines(d, b)
    decreases |a|
  {
    if |a| > 0 {
      assert (a + b)[0] == a[0];
      assert (a + b)[1..] == a[1..] + b;
      TaggedAppend(d, a[1..], b);
    } else {
      assert a + b == b;
    }
  }

  lemma {:induction false} UntaggedAppend(d: Dialect, a: seq<Line>, b: seq<Line>)
    ensures UntaggedLines(d, a + b) == UntaggedLines(d, a) + UntaggedLines(d, b)
    decreases |a|
  {
    if |a| > 0 {
      assert (a + b)[0] == a[0];
      assert (a + b)[1..] == a[1..] + b;
      UntaggedAppend(d, a[1..], b);
    } else {
      assert a + b == b;
    }
  }

  lemma {:induction false} TaggedLinesAreTagged(d: Dialect, ls: seq<Line>)
    ensures forall i :: 0 <= i < |TaggedLines(d, ls)| ==>
              Recognised(d, TaggedLines(d, ls)[i]) && IsTagged(TaggedLines(d, ls)[i])
    decreases |ls|
  {
    if |ls| > 0 {
      TaggedLinesAreTagged(d, ls[1..]);
    }
  }

  lemma {:induction false} UntaggedLinesAreUntagged(d: Dialect, ls: seq<Line>)
    ensures forall i :: 0 <= i < |UntaggedLines(d, ls)| ==>
              Recognised(d, UntaggedLines(d, ls)[i]) && !IsTagged(UntaggedLines(d, ls)[i])
    decreases |ls|
  {
    if |ls| > 0 {
      UntaggedLinesAreUntagged(d, ls[1..]);
    }
  }

  lemma {:induction false} PassesCoverRecognised(d: Dialect, ls: seq<Line>)
    ensures multiset(TaggedLines(d, ls)) + multiset(UntaggedLines(d, ls)) == multiset(RecognisedLines(d, ls))
    decreases |ls|
  {
    if |ls| > 0 {
      PassesCoverRecognised(d, ls[1..]);
    }
  }

  /** The two passes visit every recognised line exactly once, all tagged
      lines before all untagged ones, each group in source order. */
  lemma OrderedFields(d: Dialect, ls: seq<Line>)
    ensures forall i :: 0 <= i < |TaggedLines(d, ls)| ==>
              Recognised(d, Ordered(d, ls)[i]) && IsTagged(Ordered(d, ls)[i])
    ensures forall i :: |TaggedLines(d, ls)| <= i < |Ordered(d, ls)| ==>
              Recognised(d, Ordered(d, ls)[i]) && !IsTagged(Ordered(d, ls)[i])
    ensures multiset(Ordered(d, ls)) == multiset(RecognisedLines(d, ls))
    ensures forall a, b :: ls == a + b ==>
              && TaggedLines(d, ls) == TaggedLines(d, a) + TaggedLines(d, b)
              && UntaggedLines(d, ls) == UntaggedLines(d, a) + UntaggedLines(d, b)
  {
    TaggedLinesAreTagged(d, ls);
    UntaggedLinesAreUntagged(d, ls);
    PassesCoverRecognised(d, ls);
    var t := TaggedLines(d, ls);
    forall i | |t| <= i < |Ordered(d, ls)|
      ensures Ordered(d, ls)[i] == UntaggedLines(d, ls)[i - |t|]
    {
    }
    forall a, b | ls == a + b
      ensures TaggedLines(d, ls) == TaggedLines(d, a) + TaggedLines(d, b)
      ensures UntaggedLines(d, ls) == UntaggedLines(d, a) + UntaggedLines(d, b)
    {
      TaggedAppend(d, a, b);
      UntaggedAppend(d, a, b);
    }
  }
}

=== FILE: findings.dfy ===
/** Two defects of the struct-inlining step, each shown on the generator as
    written and proved absent from the corrected dialect.

    1. An inlined field is written back as `Key.inner`, but the field-name
       pattern has no `.` in it, so the line is never read again and the
       nested struct's fields disappear from the output.
    2. When a nested block has comments above it, dropping the block's
       first text line removes a comment instead of the `Key struct {`
       line, which is then read as a field of type `struct`. */
module Findings {
  import opened Strings
  import opened Schema
  import opened Fields
  import opened Nodes
  import opened Engine
  import opened Properties
  import opened Passes

  // ---------------------------------------------------------------------
  // 1. Inlined names

  /** As written, no line produced by inlining a nested block is ever
      recognised as a field. */
  lemma InlinedLineIgnored(tagged: bool, key: string, json: string, v: Node)
    ensures !Recognised(AsWritten, InlineLine(tagged, key, json, v))
  {
    var l := InlineLine(tagged, key, json, v);
    assert l.name[|key|] == '.';
  }

  /** Corrected, a line produced by inlining a well-formed variable is
      recognised as a field. */
  lemma InlinedLineRecognised(tagged: bool, key: string, json: string, v: Node)
    requires |key| > 0 && IsWordString(key)
    requires |v.key| > 0 && forall i :: 0 <= i < |v.key| ==> KeyChar(Corrected, v.key[i])
    requires |v.typ| > 0 && forall i :: 0 <= i < |v.typ| ==> TypeChar(v.typ[i])
    ensures Recognised(Corrected, InlineLine(tagged, key, json, v))
  {
    var name := key + "." + v.key;
    assert InlineLine(tagged, key, json, v).name == name;
    forall i | 0 <= i < |name| ensures KeyChar(Corrected, name[i]) {
      if i < |key| {
        assert name[i] == key[i];
      } else if i > |key| {
        assert name[i] == v.key[i - |key| - 1];
      }
    }
  }

  /** Corrected, an inlined line is read back as `Key.inner` with the
      variable's type; the tagged form carries the JSON path `json.inner`
      and is required. */
  lemma InlinedLineRead(tagged: bool, key: string, json: string, v: Node)
    requires tagged ==> forall i :: 0 <= i < |json + "." + v.json| ==> JsonChar((json + "." + v.json)[i])
    ensures Read(InlineLine(tagged, key, json, v)).key == key + "." + v.key
    ensures Read(InlineLine(tagged, key, json, v)).typ == v.typ
    ensures tagged ==> Read(InlineLine(tagged, key, json, v)).json == json + "." + v.json
    ensures tagged ==> Read(InlineLine(tagged, key, json, v)).required
  {
    var l := InlineLine(tagged, key, json, v);
    if tagged {
      assert l.tag == Some(Tag(json + "." + v.json, false));
      assert |json + "." + v.json| > 0;
      assert AcceptedTag(l.tag) == l.tag;
    }
  }

  /** A body of one recognised scalar field resolves to that field's
      scalar node. */
  lemma OneScalarBody(fuel: nat, run: Run, l: Line, data: Blob, prefix: string, acc: seq<Node>)
    requires Recognised(run.dialect, l)
    requires var t := SplitMap(l.typ).1;
             !InFile(t, data) && !SliceInFile(t, data) && Lookup(run.deps, t).None?
    ensures GetVariables(fuel, run, [l], data, prefix, acc)
            == Ok([ScalarNode(Read(l), SplitMap(l.typ).0, SplitMap(l.typ).1, prefix)], acc)
  {
    var d := run.dialect;
    var lines := [l];
    assert lines[0] == l && lines[1..] == [];
    assert TaggedLines(d, lines[1..]) == [] && UntaggedLines(d, lines[1..]) == [];
    assert Ordered(d, lines) == lines;
    var n := ScalarNode(Read(l), SplitMap(l.typ).0, SplitMap(l.typ).1, prefix);
    ScalarField(fuel, run, l, data, prefix, acc);
    var r := Classify(fuel, run, l, data, prefix, acc);
    assert r.value[0] == n;
    assert r == Ok([n], acc);
    assert ResolveAll(fuel, run, lines[1..], data, prefix, acc) == Ok([], acc);
    assert ResolveAll(fuel, run, lines, data, prefix, acc) == Ok([n] + [], acc);
    assert [n] + [] == [n];
    assert GetVariables(fuel, run, lines, data, prefix, acc) == ResolveAll(fuel, run, lines, data, prefix, acc);
  }

  /** Inlining a body made of one tagged block gives one line per variable
      of the block. */
  lemma OneBlockInlined(fuel: nat, run: Run, c: seq<string>, key: string, json: string, body: seq<Line>,
                        data: Blob, prefix: string, acc: seq<Node>, vs: seq<Node>, acc': seq<Node>)
    requires GetVariables(fuel, run, BlockLines(run.dialect, c, key, body), data, prefix, acc) == Ok(vs, acc')
    ensures InlinePass(fuel, run, true, [NestedItem(c, key, Some(Tag(json, false)), body)], data, prefix, acc)
            == Ok(AsItems(InlineLines(true, key, json, vs)), acc')
  {
    var items := [NestedItem(c, key, Some(Tag(json, false)), body)];
    assert items[1..] == [];
    assert InlinePass(fuel, run, true, items[1..], data, prefix, acc') == Ok([], acc');
    assert AsItems(InlineLines(true, key, json, vs)) + [] == AsItems(InlineLines(true, key, json, vs));
  }

  /** When the tagged inlining pass leaves only field lines, the struct's
      variables are those of the lines. */
  lemma StructOfFieldLines(fuel: nat, run: Run, name: string, data: Blob, prefix: string,
                           acc: seq<Node>, lines: seq<Line>, acc': seq<Node>)
    requires name in data.structs
    requires InlinePass(fuel, run, true, data.structs[name], data, prefix, acc) == Ok(AsItems(lines), acc')
    ensures GetStruct(fuel + 1, run, name, data, prefix, acc)
            == Found(GetVariables(fuel, run, lines, data, prefix, acc'))
  {
    StructBody(fuel, run, name, data, prefix, acc);
    var items := AsItems(lines);
    assert InlinePass(fuel, run, false, items, data, prefix, acc') == Ok(items, acc');
    assert ExpandPass(fuel, run, items, prefix, [], acc') == Ok(items, acc');
    assert FieldLines(items) == lines by {
      FieldLinesKeepAll(items);
      AsItemsInjective(FieldLines(items), lines);
    }
  }

  lemma AsItemsInjective(a: seq<Line>, b: seq<Line>)
    requires AsItems(a) == AsItems(b)
    ensures a == b
  {
    assert |a| == |b|;
    forall k | 0 <= k < |a|
      ensures a[k] == b[k]
    {
      assert AsItems(a)[k] == AsItems(b)[k];
    }
  }

  /** `l` is a recognised line whose type is neither a struct, a slice of
      a struct nor a dependency: the classifier keeps it as a scalar. */
  predicate ScalarLine(run: Run, data: Blob, l: Line) {
    && Recognised(run.dialect, l)
    && var t := SplitMap(l.typ).1;
       && !InFile(t, data) && !SliceInFile(t, data)
       && Lookup(run.deps, t).None?
  }

  /** The tagged pass turns a block around one scalar field into one line. */
  lemma OneFieldInlined(fuel: nat, run: Run, name: string, key: string, json: string, l: Line,
                        data: Blob, prefix: string)
    requires name in data.structs && data.structs[name] == [NestedItem([], key, Some(Tag(json, false)), [l])]
    requires ScalarLine(run, data, l)
    ensures InlinePass(fuel, run, true, data.structs[name], data, prefix, [])
            == Ok(AsItems([InlineLine(true, key, json, ScalarOf(l, prefix))]), [])
  {
    var v := ScalarOf(l, prefix);
    PlainBlock(fuel, run, key, l, data, prefix);
    OneBlockInlined(fuel, run, [], key, json, [l], data, prefix, [], [v], []);
    OneInlineLine(key, json, v);
  }

  /** An uncommented block around one scalar field resolves to that field. */
  lemma PlainBlock(fuel: nat, run: Run, key: string, l: Line, data: Blob, prefix: string)
    requires Recognised(run.dialect, l)
    requires var t := SplitMap(l.typ).1;
             !InFile(t, data) && !SliceInFile(t, data) && Lookup(run.deps, t).None?
    ensures GetVariables(fuel, run, BlockLines(run.dialect, [], key, [l]), data, prefix, [])
            == Ok([ScalarNode(Read(l), SplitMap(l.typ).0, SplitMap(l.typ).1, prefix)], [])
  {
    assert BlockLines(run.dialect, [], key, [l]) == [l];
    OneScalarBody(fuel, run, l, data, prefix, []);
  }

  lemma OneInlineLine(key: string, json: string, v: Node)
    ensures InlineLines(true, key, json, [v]) == [InlineLine(true, key, json, v)]
  {
  }

  /** A struct whose body is one tagged nested block around one `int`
      field: `type Outer struct { Inner struct { Port int json:"port" }
      json:"inner" }`. */
  function Port(): Line {
    Line([], "Port", "int", Some(Tag("port", false)))
  }

  function NestedOnly(): Blob {
    Blob(map["Outer" := [NestedItem([], "Inner", Some(Tag("inner", false)), [Port()])]], None)
  }

  /** What the proofs about the example need to know of its blob. */
  predicate ExampleShape(data: Blob) {
    && "Outer" in data.structs
    && data.structs["Outer"] == [NestedItem([], "Inner", Some(Tag("inner", false)), [Port()])]
    && "int" !in data.structs
  }

  lemma NestedOnlyShape()
    ensures ExampleShape(NestedOnly())
  {
    assert |"int"| == 3 && |"Outer"| == 5;
  }

  /** As written the example struct resolves to no variable at all. */
  lemma NestedFieldVanishes(fuel: nat, prefix: string)
    ensures GetStruct(fuel + 1, Run([], "TYK_PMP", AsWritten), "Outer", NestedOnly(), prefix, [])
            == Ok(Some([]), [])
  {
    NestedOnlyShape();
    VanishesAt(fuel, Run([], "TYK_PMP", AsWritten), NestedOnly(), prefix);
  }

  lemma VanishesAt(fuel: nat, run: Run, data: Blob, prefix: string)
    requires run.deps == [] && run.dialect == AsWritten && ExampleShape(data)
    ensures GetStruct(fuel + 1, run, "Outer", data, prefix, []) == Ok(Some([]), [])
  {
    var lines := [InlineLine(true, "Inner", "inner", PortNode(prefix))];
    var r := GetVariables(fuel, run, lines, data, prefix, []);
    assert r == Ok([], []) by {
      InlinedLineIgnored(true, "Inner", "inner", PortNode(prefix));
      assert RecognisedLines(AsWritten, lines) == [];
    }
    assert GetStruct(fuel + 1, run, "Outer", data, prefix, []) == Found(r) by {
      ExampleInlined(fuel, run, data, prefix);
    }
  }

  /** Corrected, the example struct resolves to the nested field, keyed
      `Inner.Port` with the JSON path `inner.port`. */
  lemma NestedFieldKept(fuel: nat, prefix: string)
    ensures GetStruct(fuel + 1, Run([], "TYK_PMP", Corrected), "Outer", NestedOnly(), prefix, [])
            == Ok(Some([KeptNode(prefix)]), [])
  {
    NestedOnlyShape();
    KeptAt(fuel, Run([], "TYK_PMP", Corrected), NestedOnly(), prefix);
  }

  lemma KeptAt(fuel: nat, run: Run, data: Blob, prefix: string)
    requires run.deps == [] && run.dialect == Corrected && ExampleShape(data)
    ensures GetStruct(fuel + 1, run, "Outer", data, prefix, []) == Ok(Some([KeptNode(prefix)]), [])
  {
    var lines := [InlineLine(true, "Inner", "inner", PortNode(prefix))];
    var r := GetVariables(fuel, run, lines, data, prefix, []);
    assert r == Ok([KeptNode(prefix)], []) by {
      InlinedPortResolved(fuel, run, data, prefix);
    }
    assert GetStruct(fuel + 1, run, "Outer", data, prefix, []) == Found(r) by {
      ExampleInlined(fuel, run, data, prefix);
    }
  }

  /** In either dialect the example struct resolves to what its inlined
      line resolves to. */
  lemma ExampleInlined(fuel: nat, run: Run, data: Blob, prefix: string)
    requires run.deps == [] && ExampleShape(data)
    ensures GetStruct(fuel + 1, run, "Outer", data, prefix, [])
            == Found(GetVariables(fuel, run, [InlineLine(true, "Inner", "inner", PortNode(prefix))], data, prefix, []))
  {
    var lines := [InlineLine(true, "Inner", "inner", PortNode(prefix))];
    ExampleTaggedPass(fuel, run, data, prefix);
    StructOfFieldLines(fuel, run, "Outer", data, prefix, [], lines, []);
  }

  /** The tagged pass turns the example's block into its one inlined line. */
  lemma ExampleTaggedPass(fuel: nat, run: Run, data: Blob, prefix: string)
    requires run.deps == [] && ExampleShape(data)
    ensures InlinePass(fuel, run, true, data.structs["Outer"], data, prefix, [])
            == Ok(AsItems([InlineLine(true, "Inner", "inner", PortNode(prefix))]), [])
  {
    PortScalarLine(run, data, prefix);
    OneFieldInlined(fuel, run, "Outer", "Inner", "inner", Port(), data, prefix);
  }

  /** Without dependencies, `Port` is a scalar line of the example. */
  lemma PortScalarLine(run: Run, data: Blob, prefix: string)
    requires run.deps == [] && "int" !in data.structs
    ensures ScalarLine(run, data, Port()) && ScalarOf(Port(), prefix) == PortNode(prefix)
  {
    PortLineScalar(run, data);
    PortScalarNode(prefix);
  }

  lemma PortLineScalar(run: Run, data: Blob)
    requires run.deps == [] && "int" !in data.structs
    ensures ScalarLine(run, data, Port())
  {
    PortIsScalar();
    IntHasNoMap();
    assert Deref("int") == "int";
  }

  lemma PortScalarNode(prefix: string)
    ensures ScalarOf(Port(), prefix) == PortNode(prefix)
  {
    PortIsScalar();
    PortResolved(prefix);
  }

  /** `Port` is a recognised, tagged scalar field in either dialect. */
  lemma PortIsScalar()
    ensures Recognised(AsWritten, Port()) && Recognised(Corrected, Port())
    ensures SplitMap(Port().typ) == ("", "int")
    ensures Lookup([], "int").None?
    ensures Read(Port()) == Field(None, "Port", "int", "port", true)
  {
    PortRecognised();
    IntHasNoMap();
    PortRead();
  }

  lemma PortRecognised()
    ensures Recognised(AsWritten, Port()) && Recognised(Corrected, Port())
  {
  }

  lemma PortRead()
    ensures Read(Port()) == Field(None, "Port", "int", "port", true)
  {
    PortJson();
    PlainTaggedRead(Port(), "port");
  }

  /** A comment-less line with a well-formed tag is read off directly. */
  lemma PlainTaggedRead(l: Line, j: string)
    requires l.comment == [] && l.tag == Some(Tag(j, false)) && |j| > 0
    requires forall i :: 0 <= i < |j| ==> JsonChar(j[i])
    ensures Read(l) == Field(None, l.name, l.typ, j, true)
  {
    assert AttachedComment(l.comment) == [];
    assert DescriptionLines(l) == [];
    assert AcceptedTag(l.tag) == l.tag;
  }

  lemma PortJson()
    ensures forall i :: 0 <= i < |"port"| ==> JsonChar("port"[i])
  {
  }

  lemma IntHasNoMap()
    ensures SplitMap("int") == ("", "int") && "int"[..2] != "[]"
  {
    assert !OccursAt("int", "map[", 0);
    assert FirstMap("int", 0).None?;
    assert "int"[0] == 'i';
  }

  lemma IntIsNotAliased()
    ensures Alias("int").None? && ScalarType("", "int") == "int"
  {
    assert |"int"| == 3;
    assert |"MongoType"| == 9 && |"EnvMapString"| == 12;
  }

  /** The variable of the example's nested block. */
  function PortNode(prefix: string): Node {
    Node(Some(Variable), None, "Port", "port", Some(prefix + "_PORT"), "int", Some(true), None)
  }

  lemma PortResolved(prefix: string)
    ensures ScalarNode(Read(Port()), "", "int", prefix) == PortNode(prefix)
  {
    PortRead();
    PortNodeAt(Read(Port()), prefix);
  }

  lemma PortNodeAt(f: Field, prefix: string)
    requires f == Field(None, "Port", "int", "port", true)
    ensures ScalarNode(f, "", "int", prefix) == PortNode(prefix)
  {
    UpperPort();
    PortEnv(prefix);
    IntIsNotAliased();
  }

  lemma UpperPort()
    ensures Upper("Port") == "PORT"
  {
  }

  lemma PortEnv(prefix: string)
    ensures prefix + "_" + "PORT" == prefix + "_PORT"
  {
    var u, e := "_", "PORT";
    assert |u + e| == 5;
    assert forall i :: 0 <= i < 5 ==> (u + e)[i] == "_PORT"[i];
    assert u + e == "_PORT";
  }

  /** Corrected, the example's inlined line resolves to one variable. */
  lemma InlinedPortResolved(fuel: nat, run: Run, data: Blob, prefix: string)
    requires run.deps == [] && run.dialect == Corrected && "int" !in data.structs
    ensures GetVariables(fuel, run, [InlineLine(true, "Inner", "inner", PortNode(prefix))], data, prefix, [])
            == Ok([KeptNode(prefix)], [])
  {
    var line := InlineLine(true, "Inner", "inner", PortNode(prefix));
    assert Recognised(Corrected, line) && SplitMap(line.typ) == ("", "int")
           && Read(line) == Field(None, "Inner.Port", "int", "inner.port", true) by {
      InlinedPort(PortNode(prefix));
    }
    InlinedLineResolved(fuel, run, data, line, prefix);
  }

  lemma InlinedLineResolved(fuel: nat, run: Run, data: Blob, line: Line, prefix: string)
    requires run.deps == [] && run.dialect == Corrected && "int" !in data.structs
    requires Recognised(Corrected, line) && SplitMap(line.typ) == ("", "int")
    requires Read(line) == Field(None, "Inner.Port", "int", "inner.port", true)
    ensures GetVariables(fuel, run, [line], data, prefix, []) == Ok([KeptNode(prefix)], [])
  {
    IntHasNoMap();
    OneScalarBody(fuel, run, line, data, prefix, []);
    InnerPortNode(line, prefix);
  }

  /** The example's inlined line, read in the corrected dialect. */
  lemma InlinedPort(v: Node)
    requires v.key == "Port" && v.typ == "int" && v.json == "port" && v.description.None?
    ensures var line := InlineLine(true, "Inner", "inner", v);
            && Recognised(Corrected, line)
            && SplitMap(line.typ) == ("", "int")
            && Read(line) == Field(None, "Inner.Port", "int", "inner.port", true)
  {
    InlinedPortRecognised(v);
    InlinedPortRead(v);
    IntHasNoMap();
  }

  lemma InlinedPortRecognised(v: Node)
    requires v.key == "Port" && v.typ == "int"
    ensures Recognised(Corrected, InlineLine(true, "Inner", "inner", v))
  {
    assert IsWordString("Inner");
    assert forall i :: 0 <= i < |v.key| ==> KeyChar(Corrected, v.key[i]);
    assert forall i :: 0 <= i < |v.typ| ==> TypeChar(v.typ[i]);
    InlinedLineRecognised(true, "Inner", "inner", v);
  }

  lemma InlinedPortRead(v: Node)
    requires v.key == "Port" && v.typ == "int" && v.json == "port" && v.description.None?
    ensures Read(InlineLine(true, "Inner", "inner", v)) == Field(None, "Inner.Port", "int", "inner.port", true)
  {
    var l := InlineLine(true, "Inner", "inner", v);
    InnerPortNames();
    assert l.comment == [] && l.name == "Inner.Port";
    assert l.tag == Some(Tag("inner.port", false));
    PlainTaggedRead(l, "inner.port");
  }

  lemma InnerPortNames()
    ensures "Inner" + "." + "Port" == "Inner.Port"
    ensures "inner" + "." + "port" == "inner.port"
    ensures forall i :: 0 <= i < |"inner.port"| ==> JsonChar("inner.port"[i])
  {
    var a, b := "Inner" + ".", "Port";
    assert |a + b| == 10;
    assert forall i :: 0 <= i < 10 ==> (a + b)[i] == "Inner.Port"[i];
    var c, d := "inner" + ".", "port";
    assert |c + d| == 10;
    assert forall i :: 0 <= i < 10 ==> (c + d)[i] == "inner.port"[i];
  }

  /** The variable the corrected dialect makes of the example's nested
      field. */
  function KeptNode(prefix: string): Node {
    Node(Some(Variable), None, "Inner.Port", "inner.port", Some(prefix + "_INNER.PORT"), "int", Some(true), None)
  }

  /** The node the corrected dialect makes of the example's inlined line. */
  lemma InnerPortNode(line: Line, prefix: string)
    requires Read(line) == Field(None, "Inner.Port", "int", "inner.port", true)
    ensures ScalarNode(Read(line), "", "int", prefix) == KeptNode(prefix)
  {
    UpperInnerPort();
    InnerPortEnv(prefix);
    IntIsNotAliased();
  }

  lemma UpperInnerPort()
    ensures Upper("Inner.Port") == "INNER.PORT"
  {
  }

  lemma InnerPortEnv(prefix: string)
    ensures prefix + "_" + "INNER.PORT" == prefix + "_INNER.PORT"
  {
    var u, e := "_", "INNER.PORT";
    assert |u + e| == 11;
    assert forall i :: 0 <= i < 11 ==> (u + e)[i] == "_INNER.PORT"[i];
    assert u + e == "_INNER.PORT";
  }

  // ---------------------------------------------------------------------
  // 2. A commented block keeps its own header line

  lemma StructHasNoMap()
    ensures SplitMap("struct") == ("", "struct") && "struct"[..2] != "[]"
  {
    assert "struct"[0] == 's';
    assert |"struct"| == 6 && |"map["| == 4;
    forall j | 0 <= j <= 2
      ensures !OccursAt("struct", "map[", j)
    {
      assert "struct"[j] != 'm';
      assert "struct"[j..j + 4][0] == "struct"[j];
    }
    assert FirstMap("struct", 0).None?;
  }

  lemma StructIsNotAliased()
    ensures Alias("struct").None? && ScalarType("", "struct") == "struct"
  {
    assert |"struct"| == 6;
    assert |"MongoType"| == 9 && |"EnvMapString"| == 12;
  }

  /** The scalar node the classifier makes of `l`. */
  function ScalarOf(l: Line, prefix: string): Node {
    ScalarNode(Read(l), SplitMap(l.typ).0, SplitMap(l.typ).1, prefix)
  }

  /** The line a commented block's own `Key struct {` line is read as. */
  function HeaderLine(c: seq<string>, key: string): Line
    requires |AttachedComment(c)| > 0
  {
    Line(AttachedComment(c)[1..], key, "struct", None)
  }

  /** As written, the variables of a tagged block around one tagged scalar
      field are that field's node alone when no comment is attached above
      the block, and with a comment attached that node followed by a second
      variable: the block's own name, typed `struct`, with the environment
      name `<prefix>_<NAME>` and the name (first `_` made a `.`) as its JSON
      name. */
  lemma CommentedBlockGainsField(fuel: nat, run: Run, c: seq<string>, key: string, l: Line, data: Blob,
                                 prefix: string, acc: seq<Node>)
    requires run.dialect == AsWritten && |AttachedComment(c)| > 0
    requires |key| > 0 && IsWordString(key)
    requires ScalarLine(run, data, l) && IsTagged(l)
    requires !InFile("struct", data) && Lookup(run.deps, "struct").None?
    ensures GetVariables(fuel, run, BlockLines(AsWritten, [], key, [l]), data, prefix, acc)
            == Ok([ScalarOf(l, prefix)], acc)
    ensures var r := GetVariables(fuel, run, BlockLines(AsWritten, c, key, [l]), data, prefix, acc);
            && r.Ok? && r.pumps == acc && |r.value| == 2
            && r.value[0] == ScalarOf(l, prefix)
            && r.value[1].key == key && r.value[1].typ == "struct"
            && r.value[1].env == Some(prefix + "_" + Upper(key))
            && r.value[1].json == ReplaceFirst(key, "_", ".")
  {
    assert GetVariables(fuel, run, BlockLines(AsWritten, [], key, [l]), data, prefix, acc)
           == Ok([ScalarOf(l, prefix)], acc) by {
      assert BlockLines(AsWritten, [], key, [l]) == [l];
      OneScalarBody(fuel, run, l, data, prefix, acc);
    }
    var h := HeaderLine(c, key);
    assert GetVariables(fuel, run, BlockLines(AsWritten, c, key, [l]), data, prefix, acc)
           == Ok([ScalarOf(l, prefix), ScalarOf(h, prefix)], acc) by {
      PlainBlockWithComment(fuel, run, c, key, l, data, prefix, acc);
    }
    HeaderLineNode(h, prefix);
  }

  /** As written, the lines a commented block around `l` is resolved from:
      `l` first, being tagged, then the block's own header line. */
  lemma PlainBlockWithComment(fuel: nat, run: Run, c: seq<string>, key: string, l: Line, data: Blob,
                              prefix: string, acc: seq<Node>)
    requires run.dialect == AsWritten && |AttachedComment(c)| > 0
    requires |key| > 0 && IsWordString(key)
    requires ScalarLine(run, data, l) && IsTagged(l)
    requires !InFile("struct", data) && Lookup(run.deps, "struct").None?
    ensures GetVariables(fuel, run, BlockLines(AsWritten, c, key, [l]), data, prefix, acc)
            == Ok([ScalarOf(l, prefix), ScalarOf(HeaderLine(c, key), prefix)], acc)
  {
    var h := HeaderLine(c, key);
    HeaderLineFirst(c, key, l);
    HeaderLineScalar(run, c, key, data);
    assert Ordered(AsWritten, [h, l]) == [l, h] by {
      HeaderThenTagged(h, l);
    }
    TwoScalars(fuel, run, l, h, data, prefix, acc);
  }

  lemma HeaderLineFirst(c: seq<string>, key: string, l: Line)
    requires |AttachedComment(c)| > 0
    ensures BlockLines(AsWritten, c, key, [l]) == [HeaderLine(c, key), l]
  {
  }

  lemma HeaderLineScalar(run: Run, c: seq<string>, key: string, data: Blob)
    requires run.dialect == AsWritten && |AttachedComment(c)| > 0
    requires |key| > 0 && IsWordString(key)
    requires !InFile("struct", data) && Lookup(run.deps, "struct").None?
    ensures ScalarLine(run, data, HeaderLine(c, key))
  {
    SpuriousLineRecognised(HeaderLine(c, key));
    StructHasNoMap();
  }

  lemma HeaderThenTagged(h: Line, l: Line)
    requires Recognised(AsWritten, h) && !IsTagged(h)
    requires Recognised(AsWritten, l) && IsTagged(l)
    ensures Ordered(AsWritten, [h, l]) == [l, h]
  {
    assert [h, l][1..] == [l];
    assert TaggedLines(AsWritten, [l]) == [l];
    assert UntaggedLines(AsWritten, [l]) == [];
  }

  /** Two scalar lines resolve to their two nodes, in order. */
  lemma TwoScalars(fuel: nat, run: Run, a: Line, b: Line, data: Blob, prefix: string, acc: seq<Node>)
    requires ScalarLine(run, data, a) && ScalarLine(run, data, b)
    ensures ResolveAll(fuel, run, [a, b], data, prefix, acc) == Ok([ScalarOf(a, prefix), ScalarOf(b, prefix)], acc)
  {
    ScalarClassify(fuel, run, a, data, prefix, acc);
    ScalarClassify(fuel, run, b, data, prefix, acc);
    TwoSingles(fuel, run, a, b, data, prefix, acc, ScalarOf(a, prefix), ScalarOf(b, prefix));
  }

  /** One line's nodes in front of the rest's. */
  lemma OneScalar(fuel: nat, run: Run, l: Line, data: Blob, prefix: string, acc: seq<Node>)
    requires ScalarLine(run, data, l)
    ensures ResolveAll(fuel, run, [l], data, prefix, acc) == Ok([ScalarOf(l, prefix)], acc)
  {
    ScalarClassify(fuel, run, l, data, prefix, acc);
    OneLine(fuel, run, l, data, prefix, acc, [ScalarOf(l, prefix)], acc);
  }

  /** The classifier keeps a scalar line as its one scalar node. */
  lemma ScalarClassify(fuel: nat, run: Run, l: Line, data: Blob, prefix: string, acc: seq<Node>)
    requires ScalarLine(run, data, l)
    ensures Classify(fuel, run, l, data, prefix, acc) == Ok([ScalarOf(l, prefix)], acc)
  {
  }

  /** The node made of the header line: the block's name, typed `struct`. */
  lemma HeaderLineNode(h: Line, prefix: string)
    requires h.typ == "struct" && h.tag.None?
    ensures ScalarOf(h, prefix).key == h.name && ScalarOf(h, prefix).typ == "struct"
    ensures ScalarOf(h, prefix).env == Some(prefix + "_" + Upper(h.name))
    ensures ScalarOf(h, prefix).json == ReplaceFirst(h.name, "_", ".")
  {
    StructHasNoMap();
    StructIsNotAliased();
    FieldMetadata(h);
  }

  lemma SpuriousLineRecognised(l: Line)
    requires l.typ == "struct" && |l.name| > 0 && IsWordString(l.name)
    ensures Recognised(AsWritten, l)
  {
    assert forall i :: 0 <= i < |"struct"| ==> TypeChar("struct"[i]);
    assert forall i :: 0 <= i < |l.name| ==> KeyChar(AsWritten, l.name[i]);
  }

  /** As written, the tagged pass rewrites a commented block around one
      tagged scalar field into two lines instead of one: the field's, and a
      line `Key.Key` typed `struct`. */
  lemma CommentedBlockRewritten(fuel: nat, run: Run, c: seq<string>, key: string, json: string, l: Line,
                                data: Blob, prefix: string, acc: seq<Node>)
    requires run.dialect == AsWritten && |AttachedComment(c)| > 0
    requires |key| > 0 && IsWordString(key)
    requires ScalarLine(run, data, l) && IsTagged(l)
    requires !InFile("struct", data) && Lookup(run.deps, "struct").None?
    ensures InlinePass(fuel, run, true, [NestedItem([], key, Some(Tag(json, false)), [l])], data, prefix, acc)
            == Ok([FieldItem(InlineLine(true, key, json, ScalarOf(l, prefix)))], acc)
    ensures var r := InlinePass(fuel, run, true, [NestedItem(c, key, Some(Tag(json, false)), [l])], data, prefix, acc);
            && r.Ok? && |r.value| == 2
            && r.value[0] == FieldItem(InlineLine(true, key, json, ScalarOf(l, prefix)))
            && r.value[1].FieldItem? && r.value[1].line.name == key + "." + key && r.value[1].line.typ == "struct"
  {
    PlainBlockRewritten(fuel, run, key, json, l, data, prefix, acc);
    var n, m := ScalarOf(l, prefix), ScalarOf(HeaderLine(c, key), prefix);
    CommentedBlockTwoLines(fuel, run, c, key, json, l, data, prefix, acc);
    TwoInlineLines(key, json, n, m);
    HeaderLineNode(HeaderLine(c, key), prefix);
  }

  lemma CommentedBlockTwoLines(fuel: nat, run: Run, c: seq<string>, key: string, json: string, l: Line,
                               data: Blob, prefix: string, acc: seq<Node>)
    requires run.dialect == AsWritten && |AttachedComment(c)| > 0
    requires |key| > 0 && IsWordString(key)
    requires ScalarLine(run, data, l) && IsTagged(l)
    requires !InFile("struct", data) && Lookup(run.deps, "struct").None?
    ensures InlinePass(fuel, run, true, [NestedItem(c, key, Some(Tag(json, false)), [l])], data, prefix, acc)
            == Ok(AsItems(InlineLines(true, key, json, [ScalarOf(l, prefix), ScalarOf(HeaderLine(c, key), prefix)])), acc)
  {
    var n, m := ScalarOf(l, prefix), ScalarOf(HeaderLine(c, key), prefix);
    PlainBlockWithComment(fuel, run, c, key, l, data, prefix, acc);
    OneBlockInlined(fuel, run, c, key, json, [l], data, prefix, acc, [n, m], acc);
  }

  lemma TwoInlineLines(key: string, json: string, n: Node, m: Node)
    ensures AsItems(InlineLines(true, key, json, [n, m]))
            == [FieldItem(InlineLine(true, key, json, n)), FieldItem(InlineLine(true, key, json, m))]
  {
  }

  lemma PlainBlockRewritten(fuel: nat, run: Run, key: string, json: string, l: Line, data: Blob,
                            prefix: string, acc: seq<Node>)
    requires ScalarLine(run, data, l)
    ensures InlinePass(fuel, run, true, [NestedItem([], key, Some(Tag(json, false)), [l])], data, prefix, acc)
            == Ok([FieldItem(InlineLine(true, key, json, ScalarOf(l, prefix)))], acc)
  {
    var n := ScalarOf(l, prefix);
    assert GetVariables(fuel, run, BlockLines(run.dialect, [], key, [l]), data, prefix, acc) == Ok([n], acc) by {
      assert BlockLines(run.dialect, [], key, [l]) == [l];
      OneScalarBody(fuel, run, l, data, prefix, acc);
    }
    OneBlockInlined(fuel, run, [], key, json, [l], data, prefix, acc, [n], acc);
    OneInlineLine(key, json, n);
    OneFieldItem(InlineLine(true, key, json, n));
  }

  lemma OneFieldItem(x: Line)
    ensures AsItems([x]) == [FieldItem(x)]
  {
  }

  /** The item with the comment above a nested block removed. */
  function Uncomment(it: Item): Item {
    if it.NestedItem? then it.(comment := []) else it
  }

  function Uncommented(items: seq<Item>): (r: seq<Item>)
    ensures |r| == |items| && forall i {:trigger r[i]} :: 0 <= i < |items| ==> r[i] == Uncomment(items[i])
  {
    seq(|items|, i requires 0 <= i < |items| => Uncomment(items[i]))
  }

  lemma UncommentedCons(x: seq<Item>, ys: seq<Item>)
    requires forall i :: 0 <= i < |x| ==> !x[i].NestedItem?
    ensures Uncommented(x + ys) == x + Uncommented(ys)
  {
    assert forall i :: 0 <= i < |x| ==> (x + ys)[i] == x[i];
    assert forall i :: |x| <= i < |x| + |ys| ==> (x + ys)[i] == ys[i - |x|];
  }

  lemma UncommentedTail(items: seq<Item>)
    requires |items| > 0
    ensures Uncommented(items) == [Uncomment(items[0])] + Uncommented(items[1..])
  {
  }

  /** Corrected, an inlining pass does not look at the comments above
      nested blocks: on the uncommented body it fails alike, or succeeds
      with the same accumulator and the same items, uncommented. */
  lemma {:induction false} UncommentedInline(fuel: nat, run: Run, tagged: bool, items: seq<Item>, data: Blob,
                                             prefix: string, acc: seq<Node>)
    requires run.dialect == Corrected
    ensures var r := InlinePass(fuel, run, tagged, items, data, prefix, acc);
            var r' := InlinePass(fuel, run, tagged, Uncommented(items), data, prefix, acc);
            && (r.Err? <==> r'.Err?)
            && (r.Err? ==> r'.error == r.error)
            && (r.Ok? ==> r'.pumps == r.pumps && r'.value == Uncommented(r.value))
    decreases |items|
  {
    if |items| > 0 {
      var it := items[0];
      var us := Uncommented(items);
      UncommentedTail(items);
      assert us[0] == Uncomment(it) && us[1..] == Uncommented(items[1..]);
      if it.NestedItem? && it.tag.Some? == tagged {
        assert BlockLines(Corrected, it.comment, it.key, it.body) == it.body;
        assert BlockLines(Corrected, [], it.key, it.body) == it.body;
        var inner := GetVariables(fuel, run, it.body, data, prefix, acc);
        if inner.Ok? {
          var json := if it.tag.Some? then it.tag.value.json else "";
          var lines := AsItems(InlineLines(tagged, it.key, json, inner.value));
          UncommentedInline(fuel, run, tagged, items[1..], data, prefix, inner.pumps);
          var rest := InlinePass(fuel, run, tagged, items[1..], data, prefix, inner.pumps);
          if rest.Ok? {
            UncommentedCons(lines, rest.value);
          }
        }
      } else {
        UncommentedInline(fuel, run, tagged, items[1..], data, prefix, acc);
        var rest := InlinePass(fuel, run, tagged, items[1..], data, prefix, acc);
        if rest.Ok? {
          UncommentedTail([it] + rest.value);
          assert ([it] + rest.value)[1..] == rest.value;
        }
      }
    }
  }

  /** Corrected, a body resolves as its uncommented self does. */
  lemma UncommentedBody(fuel: nat, run: Run, items: seq<Item>, data: Blob, prefix: string, acc: seq<Node>)
    requires run.dialect == Corrected
    ensures ResolveBody(fuel, run, items, data, prefix, acc)
            == ResolveBody(fuel, run, Uncommented(items), data, prefix, acc)
  {
    var w := InlinePass(fuel, run, true, items, data, prefix, acc);
    var w' := InlinePass(fuel, run, true, Uncommented(items), data, prefix, acc);
    UncommentedInline(fuel, run, true, items, data, prefix, acc);
    if w.Ok? {
      var o := InlinePass(fuel, run, false, w.value, data, prefix, w.pumps);
      UncommentedInline(fuel, run, false, w.value, data, prefix, w.pumps);
      if o.Ok? {
        InlinePassOrigin(fuel, run, false, w.value, data, prefix, w.pumps);
        NoBlocksLeft(o.value, w.value);
        UncommentedCons(o.value, []);
        assert o.value + [] == o.value;
      }
    }
  }

  /** Corrected, a struct resolves exactly as if no nested block in it had
      a comment above it. */
  lemma CommentedBlockUnchanged(fuel: nat, run: Run, name: string, data: Blob, prefix: string, acc: seq<Node>)
    requires run.dialect == Corrected && name in data.structs
    ensures GetStruct(fuel + 1, run, name, data, prefix, acc)
            == Found(ResolveBody(fuel, run, Uncommented(data.structs[name]), data, prefix, acc))
  {
    UncommentedBody(fuel, run, data.structs[name], data, prefix, acc);
    StructResolvesAs(fuel, run, name, data, prefix, acc, Uncommented(data.structs[name]));
  }

  // ---------------------------------------------------------------------
  // 3. A tagged block marked omitempty

  /** As written, a struct with a tagged block marked `omitempty` never
      finishes once the tagged pass reaches that block, unless resolving
      the block's own body fails first. */
  lemma OmitEmptyBlockDiverges(fuel: nat, run: Run, name: string, data: Blob, prefix: string, acc: seq<Node>,
                               pre: seq<Item>, c: seq<string>, key: string, json: string, body: seq<Line>,
                               post: seq<Item>)
    requires run.dialect == AsWritten && name in data.structs
    requires data.structs[name] == pre + [NestedItem(c, key, Some(Tag(json, true)), body)] + post
    requires var w := InlinePass(fuel, run, true, pre, data, prefix, acc);
             && w.Ok?
             && GetVariables(fuel, run, BlockLines(AsWritten, c, key, body), data, prefix, w.pumps).Ok?
    ensures GetStruct(fuel + 1, run, name, data, prefix, acc) == Err(Diverges)
  {
    OmitEmptyPassStops(fuel, run, data, prefix, acc, pre, NestedItem(c, key, Some(Tag(json, true)), body), post);
    StructStops(fuel, run, name, data, prefix, acc, Diverges);
  }

  /** As written, when a block's body fails to resolve, a struct whose
      tagged pass reaches that block marked `omitempty` fails with the
      body's error instead of looping: every turn of the loop resolves the
      block before trying to replace it. */
  lemma OmitEmptyBlockFails(fuel: nat, run: Run, name: string, data: Blob, prefix: string, acc: seq<Node>,
                            pre: seq<Item>, c: seq<string>, key: string, json: string, body: seq<Line>,
                            post: seq<Item>)
    requires run.dialect == AsWritten && name in data.structs
    requires data.structs[name] == pre + [NestedItem(c, key, Some(Tag(json, true)), body)] + post
    requires var w := InlinePass(fuel, run, true, pre, data, prefix, acc);
             && w.Ok?
             && GetVariables(fuel, run, BlockLines(AsWritten, c, key, body), data, prefix, w.pumps).Err?
    ensures var w := InlinePass(fuel, run, true, pre, data, prefix, acc);
            GetStruct(fuel + 1, run, name, data, prefix, acc)
            == Err(GetVariables(fuel, run, BlockLines(AsWritten, c, key, body), data, prefix, w.pumps).error)
  {
    var it := NestedItem(c, key, Some(Tag(json, true)), body);
    OmitEmptyPassStops(fuel, run, data, prefix, acc, pre, it, post);
    var w := InlinePass(fuel, run, true, pre, data, prefix, acc);
    StructStops(fuel, run, name, data, prefix, acc,
                GetVariables(fuel, run, BlockLines(AsWritten, c, key, body), data, prefix, w.pumps).error);
  }

  /** The tagged pass over a body that reaches such a block ends there:
      with the block's own error if its body fails, else with `Diverges`. */
  lemma OmitEmptyPassStops(fuel: nat, run: Run, data: Blob, prefix: string, acc: seq<Node>,
                           pre: seq<Item>, it: Item, post: seq<Item>)
    requires Stuck(run.dialect, true, it)
    requires InlinePass(fuel, run, true, pre, data, prefix, acc).Ok?
    ensures var w := InlinePass(fuel, run, true, pre, data, prefix, acc);
            var g := GetVariables(fuel, run, BlockLines(run.dialect, it.comment, it.key, it.body), data, prefix, w.pumps);
            InlinePass(fuel, run, true, pre + [it] + post, data, prefix, acc)
            == if g.Err? then Err(g.error) else Err(Diverges)
  {
    var rest := [it] + post;
    assert pre + [it] + post == pre + rest;
    InlinePassAppend(fuel, run, true, pre, rest, data, prefix, acc);
    assert rest[0] == it;
  }

  /** Corrected, a tagged block marked `omitempty` is inlined like any
      other: one line per variable of its body, each tagged `json.inner`
      and required. */
  lemma OmitEmptyBlockInlined(fuel: nat, run: Run, c: seq<string>, key: string, json: string, body: seq<Line>,
                              data: Blob, prefix: string, acc: seq<Node>, vs: seq<Node>, acc': seq<Node>)
    requires run.dialect == Corrected
    requires GetVariables(fuel, run, body, data, prefix, acc) == Ok(vs, acc')
    ensures InlinePass(fuel, run, true, [NestedItem(c, key, Some(Tag(json, true)), body)], data, prefix, acc)
            == Ok(AsItems(InlineLines(true, key, json, vs)), acc')
    ensures forall k :: 0 <= k < |vs| ==>
              InlineLines(true, key, json, vs)[k].tag == Some(Tag(json + "." + vs[k].json, false))
  {
    var items := [NestedItem(c, key, Some(Tag(json, true)), body)];
    assert BlockLines(Corrected, c, key, body) == body;
    assert items[1..] == [];
    assert InlinePass(fuel, run, true, items[1..], data, prefix, acc') == Ok([], acc');
    assert AsItems(InlineLines(true, key, json, vs)) + [] == AsItems(InlineLines(true, key, json, vs));
  }
}

=== FILE: locator.dfy ===
/** The struct locator on raw source text: the span of `type NAME struct {`
    up to the first following line that is a lone closing brace. The rest
    of the model works on the lexed table of such spans; this module states
    what span the table entry for NAME stands for. */
module Locator {
  import opened Strings

  /** The declaration header the locator searches for. */
  function Header(name: string): string {
    "type " + name + " struct {"
  }

  /** The closing delimiter: a newline immediately followed by `}`. */
  function Terminator(): string {
    "\n}"
  }

  /** `[i, j + 2)` is the span the locator selects: `i` is the first place
      the header occurs, and `j` is the first terminator that leaves at least
      one character between the header and itself (the lazy `.+?`). */
  ghost predicate SelectedSpan(data: string, name: string, i: nat, j: nat) {
    && OccursAt(data, Header(name), i)
    && (forall k :: 0 <= k < i ==> !OccursAt(data, Header(name), k))
    && i + |Header(name)| + 1 <= j
    && OccursAt(data, Terminator(), j)
    && (forall k :: i + |Header(name)| + 1 <= k < j ==> !OccursAt(data, Terminator(), k))
  }

  /** A struct is present exactly when some span is selected. */
  ghost predicate Declares(data: string, name: string) {
    exists i: nat, j: nat :: SelectedSpan(data, name, i, j)
  }

  /** Scan for the first occurrence of `pat` at or after `from`. */
  method Find(data: string, pat: string, from: nat) returns (r: Option<nat>)
    requires from <= |data|
    ensures r.Some? ==> from <= r.value && OccursAt(data, pat, r.value)
    ensures r.Some? ==> forall k :: from <= k < r.value ==> !OccursAt(data, pat, k)
    ensures r.None? ==> forall k :: from <= k <= |data| ==> !OccursAt(data, pat, k)
  {
    var k := from;
    while k + |pat| <= |data|
      invariant from <= k
      invariant forall m :: from <= m < k ==> !OccursAt(data, pat, m)
      decreases |data| - k
    {
      if data[k..k + |pat|] == pat {
        return Some(k);
      }
      k := k + 1;
    }
    return None;
  }

  /** Locate the declaration of `name` in `data`; `None` when the struct is
      not declared there (the source then logs and yields `undefined`). */
  method Locate(data: string, name: string) returns (r: Option<string>)
    ensures r.Some? ==> exists i: nat, j: nat :: SelectedSpan(data, name, i, j) && r.value == data[i..j + 2]
    ensures r.None? ==> !Declares(data, name)
    ensures r.Some? ==> |r.value| > |Header(name)| + 2
    ensures r.Some? ==> r.value[..|Header(name)|] == Header(name)
    ensures r.Some? ==> r.value[|r.value| - 2..] == Terminator()
  {
    var h := Header(name);
    var start := Find(data, h, 0);
    if start.None? {
      return None;
    }
    var i := start.value;
    var stop: Option<nat> := None;
    if i + |h| + 1 <= |data| {
      stop := Find(data, Terminator(), i + |h| + 1);
    }
    if stop.None? {
      return None;
    }
    var j := stop.value;
    assert SelectedSpan(data, name, i, j);
    r := Some(data[i..j + 2]);
    assert data[i..j + 2][..|h|] == data[i..i + |h|];
    assert data[i..j + 2][|data[i..j + 2]| - 2..] == data[j..j + 2];
  }

  /** `testVariableRegex`: does `data` declare a struct called `name`? */
  method IsDeclared(data: string, name: string) returns (b: bool)
    ensures b <==> Declares(data, name)
  {
    var r := Locate(data, name);
    b := r.Some?;
  }
}

=== FILE: nodes.dfy ===
/** How the generator builds its output nodes: the map-declarator split of
    a declared type, the alias table for scalar types, the child node built
    from an inner variable (`createVariableObject`), and the replay of a
    pump template for one concrete pump. */
module Nodes {
  import opened Strings
  import opened Schema

  /** The token standing for a pump's name in template variables. */
  const Placeholder: string := "{PMP_NAME}"
  /** The field name that holds the pump table. */
  const PumpsKey: string := "Pumps"
  /** The environment name of the pump-meta sentinel field. */
  const MetaEnv: string := "TYK_PMP_META"
  /** The prefix handed to `createVariableObject` for a pump's own fields. */
  const PumpFieldPrefix: string := "TYK_PMP"

  // ---------------------------------------------------------------------
  // Map declarators

  predicate MapKeyChar(c: char) {
    IsWordChar(c) || c == '.'
  }

  /** Length of the run of map-key characters starting at `j`. */
  function KeyRun(t: string, j: nat): (n: nat)
    requires j <= |t|
    ensures j + n <= |t|
    ensures forall k :: j <= k < j + n ==> MapKeyChar(t[k])
    ensures j + n < |t| ==> !MapKeyChar(t[j + n])
    decreases |t| - j
  {
    if j < |t| && MapKeyChar(t[j]) then 1 + KeyRun(t, j + 1) else 0
  }

  /** The text of `map[K]` or `map[K][]` when such a declarator starts at
      `i` (`K` a non-empty run of `[.\w]`). */
  function MapAt(t: string, i: nat): (r: Option<string>)
    requires i <= |t|
    ensures r.Some? ==> i + |r.value| <= |t| && r.value == t[i..i + |r.value|]
    ensures r.Some? ==> OccursAt(t, "map[", i) && |r.value| >= 6
  {
    if !OccursAt(t, "map[", i) then None
    else
      var n := KeyRun(t, i + 4);
      if n == 0 || i + 4 + n >= |t| || t[i + 4 + n] != ']' then None
      else if OccursAt(t, "[]", i + 5 + n) then Some(t[i..i + 7 + n])
      else Some(t[i..i + 5 + n])
  }

  /** The leftmost declarator at or after `i`, with its position. */
  function FirstMap(t: string, i: nat): (r: Option<(nat, string)>)
    requires i <= |t|
    ensures r.Some? ==> i <= r.value.0 <= |t| && MapAt(t, r.value.0) == Some(r.value.1)
    ensures r.Some? ==> forall k :: i <= k < r.value.0 ==> MapAt(t, k).None?
    ensures r.None? ==> forall k :: i <= k <= |t| ==> MapAt(t, k).None?
    decreases |t| - i
  {
    if MapAt(t, i).Some? then Some((i, MapAt(t, i).value))
    else if i == |t| then None
    else FirstMap(t, i + 1)
  }

  /** Split a declared type into its map declarator (or `""`) and the type
      the classifier goes on with. The source searches the declarator
      anywhere but cuts off as many characters from the FRONT as the
      declarator is long. */
  function SplitMap(t: string): (string, string) {
    match FirstMap(t, 0)
    case Some((_, m)) => (m, t[|m|..])
    case None => ("", t)
  }

  /** The alias table of scalar types; the repeated `EnvMapString` test of
      the source can never fire and has no entry here. */
  function Alias(t: string): Option<string> {
    if t == "IPsHandleStrategy" then Some("string")
    else if t == "EnvMapString" then Some("map[string]string")
    else if t == "UserPermissionObject" then Some("map[ObjectGroup]string")
    else if t == "MongoType" then Some("int")
    else None
  }

  /** The type shown for a scalar field: its alias, else the stripped
      declarator put back in front. */
  function ScalarType(map': string, t: string): string {
    match Alias(t)
    case Some(a) => a
    case None => map' + t
  }

  // ---------------------------------------------------------------------
  // Nodes built from a field

  /** The single node of a scalar field. */
  function ScalarNode(f: Field, map': string, t: string, prefix: string): Node {
    Node(Some(Variable), f.description, f.key, f.json, Some(prefix + "_" + Upper(f.key)),
         ScalarType(map', t), Some(f.required), None)
  }

  /** The header of a composite field; `json` is the value the source's
      `json` variable holds when the header is built. */
  function HeaderNode(f: Field, json: string, t: string): Node {
    Node(Some(Header), f.description, f.key, json, None, t, Some(f.required), None)
  }

  /** The single node of a slice-of-struct field. */
  function ArrayNode(f: Field, t: string, nested: seq<Node>): Node {
    Node(Some(Variable), f.description, f.key, f.json, None, t, Some(f.required), Some(nested))
  }

  // ---------------------------------------------------------------------
  // createVariableObject

  datatype ChildKind = TypeChild | ArrayChild | PumpChild

  /** The pump table of the pump product is keyed by the placeholder. */
  predicate PumpTable(key: string, prefix: string, pumpPrefix: string) {
    prefix == pumpPrefix && key == PumpsKey
  }

  /** The node built for inner variable `v` of an outer field `key` (with
      map declarator `map'`, JSON path `json`, environment prefix `prefix`). */
  function Child(kind: ChildKind, key: string, map': string, json: string, prefix: string,
                 pumpPrefix: string, v: Node): Node
  {
    var table := PumpTable(key, prefix, pumpPrefix);
    var key' := if table then PumpsKey + "." + Placeholder else key;
    var env' := if table then Upper(PumpsKey) + "_" + Placeholder else Upper(key);
    var json' := if table then json + "." + Placeholder else json;
    var typ := if !table && map' != "" then map' + v.typ else v.typ;
    var flavour := Some(if v.flavour.Some? then v.flavour.value else Variable);
    match kind
    case TypeChild =>
      Node(flavour, v.description, key' + "_" + v.key, json' + "." + v.json,
           Some(prefix + "_" + env' + "_" + Upper(v.key)), typ, v.required, v.nested)
    case ArrayChild =>
      Node(None, v.description, v.key, v.json, None, typ, v.required, v.nested)
    case PumpChild =>
      Node(flavour, v.description, v.key, "pumps." + key' + ".meta." + v.json, v.env, typ,
           v.required, v.nested)
  }

  /** A template: a node whose environment name holds the placeholder. */
  predicate IsTemplate(n: Node) {
    n.env.Some? && Contains(n.env.value, Placeholder)
  }

  /** A template replayed for the pump declared as `name`: the first
      placeholder becomes `name` in the key, its upper-case form in the
      environment name and its lower-case form in the JSON path. The replay
      copies description, type and flavour only. */
  function Replay(t: Node, name: string): Node {
    Node(t.flavour, t.description, ReplaceFirst(t.key, Placeholder, name),
         ReplaceFirst(t.json, Placeholder, Lower(name)),
         if t.env.Some? then Some(ReplaceFirst(t.env.value, Placeholder, Upper(name))) else None,
         t.typ, None, None)
  }
}

=== FILE: passes.dfy ===
/** How the passes over a struct body compose. Each rewriting pass works
    item by item in source order, threading the pump-template accumulator
    (and, for the expansion pass, the lines of the last expansion); the
    field resolver is the concatenation of the nodes of each visited line;
    the pump sentinel is the concatenation, pump by pump, of the replayed
    templates and the pump's own fields. */
module Passes {
  import opened Strings
  import opened Schema
  import opened Fields
  import opened Nodes
  import opened Engine

  /** `xs` in front of the items of a successful result. */
  function Cat(xs: seq<Item>, r: Res<seq<Item>>): Res<seq<Item>> {
    if r.Ok? then Ok(xs + r.value, r.pumps) else r
  }

  lemma CatNothing(r: Res<seq<Item>>)
    ensures Cat([], r) == r
  {
    if r.Ok? {
      assert [] + r.value == r.value;
    }
  }

  lemma CatCat(xs: seq<Item>, ys: seq<Item>, r: Res<seq<Item>>)
    ensures Cat(xs, Cat(ys, r)) == Cat(xs + ys, r)
  {
    if r.Ok? {
      assert xs + (ys + r.value) == xs + ys + r.value;
    }
  }

  // ---------------------------------------------------------------------
  // The inlining passes

  /** What an inlining pass leaves of `items`: no block of the kind it
      replaces, and only blocks and directives taken from `items`. */
  predicate KeepsBlocks(tagged: bool, out: seq<Item>, items: seq<Item>) {
    (forall i :: 0 <= i < |out| && out[i].NestedItem? ==> out[i].tag.Some? != tagged && out[i] in items) &&
    (forall i :: 0 <= i < |out| && out[i].ExpandItem? ==> out[i] in items)
  }

  /** An inlining pass adds no block or directive of its own: what it
      leaves of those is carried over from its input. */
  lemma {:induction false} InlinePassOrigin(fuel: nat, run: Run, tagged: bool, items: seq<Item>, data: Blob,
                                            prefix: string, acc: seq<Node>)
    ensures var r := InlinePass(fuel, run, tagged, items, data, prefix, acc);
            r.Ok? ==> KeepsBlocks(tagged, r.value, items)
    decreases |items|
  {
    if |items| > 0 {
      var it := items[0];
      if it.NestedItem? && it.tag.Some? == tagged {
        var inner := GetVariables(fuel, run, BlockLines(run.dialect, it.comment, it.key, it.body), data, prefix, acc);
        if inner.Ok? && !Stuck(run.dialect, tagged, it) {
          var json := if it.tag.Some? then it.tag.value.json else "";
          var lines := InlineLines(tagged, it.key, json, inner.value);
          InlinePassOrigin(fuel, run, tagged, items[1..], data, prefix, inner.pumps);
          var rest := InlinePass(fuel, run, tagged, items[1..], data, prefix, inner.pumps);
          if rest.Ok? {
            FieldsKeepBlocks(tagged, lines, rest.value, items);
          }
        }
      } else {
        InlinePassOrigin(fuel, run, tagged, items[1..], data, prefix, acc);
        var rest := InlinePass(fuel, run, tagged, items[1..], data, prefix, acc);
        if rest.Ok? {
          FirstKeepsBlocks(tagged, rest.value, items);
        }
      }
    }
  }

  lemma FieldsKeepBlocks(tagged: bool, lines: seq<Line>, rest: seq<Item>, items: seq<Item>)
    requires |items| > 0 && KeepsBlocks(tagged, rest, items[1..])
    ensures KeepsBlocks(tagged, AsItems(lines) + rest, items)
  {
    var out := AsItems(lines) + rest;
    forall i | 0 <= i < |out| && (out[i].NestedItem? || out[i].ExpandItem?)
      ensures out[i] == rest[i - |lines|] && out[i] in items
    {
      assert out[i] == rest[i - |lines|];
      assert rest[i - |lines|] in items[1..];
    }
  }

  lemma FirstKeepsBlocks(tagged: bool, rest: seq<Item>, items: seq<Item>)
    requires |items| > 0 && !(items[0].NestedItem? && items[0].tag.Some? == tagged)
    requires KeepsBlocks(tagged, rest, items[1..])
    ensures KeepsBlocks(tagged, [items[0]] + rest, items)
  {
    var out := [items[0]] + rest;
    forall i | 1 <= i < |out| && (out[i].NestedItem? || out[i].ExpandItem?)
      ensures out[i] in items
    {
      assert out[i] == rest[i - 1];
      assert rest[i - 1] in items[1..];
    }
  }

  /** An inlining pass over `a + b` is the pass over `a`, then the pass
      over `b` starting from the accumulator `a` left behind; the first
      failure ends it. */
  lemma {:induction false} InlinePassAppend(fuel: nat, run: Run, tagged: bool, a: seq<Item>, b: seq<Item>,
                                            data: Blob, prefix: string, acc: seq<Node>)
    ensures var ra := InlinePass(fuel, run, tagged, a, data, prefix, acc);
            InlinePass(fuel, run, tagged, a + b, data, prefix, acc)
            == if ra.Err? then ra else Cat(ra.value, InlinePass(fuel, run, tagged, b, data, prefix, ra.pumps))
    decreases |a|
  {
    if |a| == 0 {
      assert a + b == b;
      CatNothing(InlinePass(fuel, run, tagged, b, data, prefix, acc));
    } else {
      var it := a[0];
      assert (a + b)[0] == it && (a + b)[1..] == a[1..] + b;
      if it.NestedItem? && it.tag.Some? == tagged {
        var inner := GetVariables(fuel, run, BlockLines(run.dialect, it.comment, it.key, it.body), data, prefix, acc);
        if inner.Ok? && !Stuck(run.dialect, tagged, it) {
          var json := if it.tag.Some? then it.tag.value.json else "";
          var lines := AsItems(InlineLines(tagged, it.key, json, inner.value));
          InlinePassAppend(fuel, run, tagged, a[1..], b, data, prefix, inner.pumps);
          var rest := InlinePass(fuel, run, tagged, a[1..], data, prefix, inner.pumps);
          if rest.Ok? {
            CatCat(lines, rest.value, InlinePass(fuel, run, tagged, b, data, prefix, rest.pumps));
          }
        }
      } else {
        InlinePassAppend(fuel, run, tagged, a[1..], b, data, prefix, acc);
        var rest := InlinePass(fuel, run, tagged, a[1..], data, prefix, acc);
        if rest.Ok? {
          CatCat([it], rest.value, InlinePass(fuel, run, tagged, b, data, prefix, rest.pumps));
        }
      }
    }
  }

  /** The items of this pass's kind: nested blocks with (tagged pass) or
      without (untagged pass) a closing tag. */
  predicate Block(tagged: bool, it: Item) {
    it.NestedItem? && it.tag.Some? == tagged
  }

  /** A block is replaced where it stands: the items before it, none a
      block of this pass, are kept in order, the block becomes one line per
      variable of its body, and the pass goes on after it. */
  lemma BlockInPlace(fuel: nat, run: Run, tagged: bool, pre: seq<Item>, it: Item, post: seq<Item>,
                     data: Blob, prefix: string, acc: seq<Node>, vs: seq<Node>, acc': seq<Node>)
    requires forall i :: 0 <= i < |pre| ==> !Block(tagged, pre[i])
    requires Block(tagged, it) && !Stuck(run.dialect, tagged, it)
    requires GetVariables(fuel, run, BlockLines(run.dialect, it.comment, it.key, it.body), data, prefix, acc)
             == Ok(vs, acc')
    ensures var json := if tagged then it.tag.value.json else "";
            InlinePass(fuel, run, tagged, pre + [it] + post, data, prefix, acc)
            == Cat(pre + AsItems(InlineLines(tagged, it.key, json, vs)),
                   InlinePass(fuel, run, tagged, post, data, prefix, acc'))
  {
    var json := if tagged then it.tag.value.json else "";
    var lines := AsItems(InlineLines(tagged, it.key, json, vs));
    assert pre + [it] + post == pre + ([it] + post);
    InlinePassAppend(fuel, run, tagged, pre, [it] + post, data, prefix, acc);
    assert InlinePass(fuel, run, tagged, pre, data, prefix, acc) == Ok(pre, acc);
    assert ([it] + post)[0] == it && ([it] + post)[1..] == post;
    assert InlinePass(fuel, run, tagged, [it] + post, data, prefix, acc)
           == Cat(lines, InlinePass(fuel, run, tagged, post, data, prefix, acc'));
    CatCat(pre, lines, InlinePass(fuel, run, tagged, post, data, prefix, acc'));
  }

  // ---------------------------------------------------------------------
  // The expansion pass

  /** Items that are not directives are kept in order and leave the
      fallback lines and the accumulator alone. */
  lemma {:induction false} ExpandKeepsPrefix(fuel: nat, run: Run, a: seq<Item>, b: seq<Item>, prefix: string,
                                             parsed: seq<Line>, acc: seq<Node>)
    requires forall i :: 0 <= i < |a| ==> !a[i].ExpandItem?
    ensures ExpandPass(fuel, run, a + b, prefix, parsed, acc) == Cat(a, ExpandPass(fuel, run, b, prefix, parsed, acc))
    decreases |a|
  {
    if |a| == 0 {
      assert a + b == b;
      CatNothing(ExpandPass(fuel, run, b, prefix, parsed, acc));
    } else {
      assert (a + b)[0] == a[0] && (a + b)[1..] == a[1..] + b;
      ExpandKeepsPrefix(fuel, run, a[1..], b, prefix, parsed, acc);
      CatCat([a[0]], a[1..], ExpandPass(fuel, run, b, prefix, parsed, acc));
      assert [a[0]] + a[1..] == a;
    }
  }

  /** A directive whose dependency resolves is replaced where it stands by
      one line per variable of the dependency's struct, and those lines
      become the fallback for the directives after it. */
  lemma ExpandInPlace(fuel: nat, run: Run, pre: seq<Item>, t: string, post: seq<Item>, blob: Blob,
                      prefix: string, parsed: seq<Line>, acc: seq<Node>, vs: seq<Node>, acc': seq<Node>)
    requires forall i :: 0 <= i < |pre| ==> !pre[i].ExpandItem?
    requires Lookup(run.deps, t) == Some(blob)
    requires GetStruct(fuel, run, LastSegment(t), blob, prefix, acc) == Ok(Some(vs), acc')
    ensures ExpandPass(fuel, run, pre + [ExpandItem(t)] + post, prefix, parsed, acc)
            == Cat(pre + AsItems(ExpandLines(vs)), ExpandPass(fuel, run, post, prefix, ExpandLines(vs), acc'))
  {
    var d := [ExpandItem(t)] + post;
    assert pre + [ExpandItem(t)] + post == pre + d;
    ExpandKeepsPrefix(fuel, run, pre, d, prefix, parsed, acc);
    assert d[0] == ExpandItem(t) && d[1..] == post;
    var rest := ExpandPass(fuel, run, post, prefix, ExpandLines(vs), acc');
    assert ExpandPass(fuel, run, d, prefix, parsed, acc) == Cat(AsItems(ExpandLines(vs)), rest);
    CatCat(pre, AsItems(ExpandLines(vs)), rest);
  }

  /** A directive whose dependency is missing is replaced where it stands
      by the fallback lines, which stay the fallback after it. */
  lemma FallbackInPlace(fuel: nat, run: Run, pre: seq<Item>, t: string, post: seq<Item>, prefix: string,
                        parsed: seq<Line>, acc: seq<Node>)
    requires forall i :: 0 <= i < |pre| ==> !pre[i].ExpandItem?
    requires Lookup(run.deps, t).None?
    ensures ExpandPass(fuel, run, pre + [ExpandItem(t)] + post, prefix, parsed, acc)
            == Cat(pre + AsItems(parsed), ExpandPass(fuel, run, post, prefix, parsed, acc))
  {
    var d := [ExpandItem(t)] + post;
    assert pre + [ExpandItem(t)] + post == pre + d;
    ExpandKeepsPrefix(fuel, run, pre, d, prefix, parsed, acc);
    assert d[0] == ExpandItem(t) && d[1..] == post;
    var rest := ExpandPass(fuel, run, post, prefix, parsed, acc);
    assert ExpandPass(fuel, run, d, prefix, parsed, acc) == Cat(AsItems(parsed), rest);
    CatCat(pre, AsItems(parsed), rest);
  }

  /** After both inlining passes no nested block is left. */
  lemma NoBlocksLeft(o: seq<Item>, w: seq<Item>)
    requires NoBlockOf(true, w) && KeepsBlocks(false, o, w)
    ensures forall i :: 0 <= i < |o| ==> !o[i].NestedItem?
  {
  }

  /** The expansion pass adds no nested block of its own. */
  predicate KeepsNested(out: seq<Item>, items: seq<Item>) {
    forall i :: 0 <= i < |out| && out[i].NestedItem? ==> out[i] in items
  }

  lemma {:induction false} ExpandPassOrigin(fuel: nat, run: Run, items: seq<Item>, prefix: string,
                                            parsed: seq<Line>, acc: seq<Node>)
    ensures var r := ExpandPass(fuel, run, items, prefix, parsed, acc);
            r.Ok? ==> KeepsNested(r.value, items)
    decreases |items|
  {
    if |items| > 0 {
      if items[0].ExpandItem? {
        match Lookup(run.deps, items[0].target)
        case Some(blob) =>
          var got := GetStruct(fuel, run, LastSegment(items[0].target), blob, prefix, acc);
          if got.Ok? && got.value.Some? {
            var lines := ExpandLines(got.value.value);
            ExpandPassOrigin(fuel, run, items[1..], prefix, lines, got.pumps);
            var rest := ExpandPass(fuel, run, items[1..], prefix, lines, got.pumps);
            if rest.Ok? {
              FieldsKeepNested(lines, rest.value, items);
            }
          }
        case None =>
          ExpandPassOrigin(fuel, run, items[1..], prefix, parsed, acc);
          var rest := ExpandPass(fuel, run, items[1..], prefix, parsed, acc);
          if rest.Ok? {
            FieldsKeepNested(parsed, rest.value, items);
          }
      } else {
        ExpandPassOrigin(fuel, run, items[1..], prefix, parsed, acc);
        var rest := ExpandPass(fuel, run, items[1..], prefix, parsed, acc);
        if rest.Ok? {
          var out := [items[0]] + rest.value;
          forall i | 1 <= i < |out| && out[i].NestedItem?
            ensures out[i] in items
          {
            assert out[i] == rest.value[i - 1];
            assert rest.value[i - 1] in items[1..];
          }
        }
      }
    }
  }

  lemma FieldsKeepNested(lines: seq<Line>, rest: seq<Item>, items: seq<Item>)
    requires |items| > 0 && KeepsNested(rest, items[1..])
    ensures KeepsNested(AsItems(lines) + rest, items)
  {
    var out := AsItems(lines) + rest;
    forall i | 0 <= i < |out| && out[i].NestedItem?
      ensures out[i] in items
    {
      assert out[i] == rest[i - |lines|];
      assert rest[i - |lines|] in items[1..];
    }
  }

  // ---------------------------------------------------------------------
  // The field resolver

  function Flatten(xss: seq<seq<Node>>): seq<Node> {
    if |xss| == 0 then [] else xss[0] + Flatten(xss[1..])
  }

  /** The result `GetStruct` reports for a struct whose variables are `r`. */
  function Found(r: Res<seq<Node>>): Res<Option<seq<Node>>> {
    if r.Ok? then Ok(Some(r.value), r.pumps) else Err(r.error)
  }

  /** With fuel left, a struct of the file reports the variables of its
      body. */
  lemma StructBody(fuel: nat, run: Run, name: string, data: Blob, prefix: string, acc: seq<Node>)
    requires name in data.structs
    ensures GetStruct(fuel + 1, run, name, data, prefix, acc)
            == Found(ResolveBody(fuel, run, data.structs[name], data, prefix, acc))
  {
  }

  /** A struct whose body resolves as `items` does reports what `items`
      resolves to. */
  lemma StructResolvesAs(fuel: nat, run: Run, name: string, data: Blob, prefix: string, acc: seq<Node>,
                         items: seq<Item>)
    requires name in data.structs
    requires ResolveBody(fuel, run, data.structs[name], data, prefix, acc)
             == ResolveBody(fuel, run, items, data, prefix, acc)
    ensures GetStruct(fuel + 1, run, name, data, prefix, acc)
            == Found(ResolveBody(fuel, run, items, data, prefix, acc))
  {
    StructBody(fuel, run, name, data, prefix, acc);
  }

  /** A struct whose tagged pass fails fails with the same error. */
  lemma StructStops(fuel: nat, run: Run, name: string, data: Blob, prefix: string, acc: seq<Node>, e: Error)
    requires name in data.structs
    requires InlinePass(fuel, run, true, data.structs[name], data, prefix, acc) == Err(e)
    ensures GetStruct(fuel + 1, run, name, data, prefix, acc) == Err(e)
  {
    BodyStops(fuel, run, data.structs[name], data, prefix, acc, e);
    StructBody(fuel, run, name, data, prefix, acc);
  }

  /** A tagged pass that fails fails the whole body with its error. */
  lemma BodyStops(fuel: nat, run: Run, items: seq<Item>, data: Blob, prefix: string, acc: seq<Node>, e: Error)
    requires InlinePass(fuel, run, true, items, data, prefix, acc) == Err(e)
    ensures ResolveBody(fuel, run, items, data, prefix, acc) == Err(e)
  {
  }

  /** When every line classifies in turn, each starting from the
      accumulator the previous one left, the nodes are those of each line
      concatenated in order. */
  lemma {:induction false} ResolveAllChain(fuel: nat, run: Run, lines: seq<Line>, data: Blob, prefix: string,
                                           outs: seq<seq<Node>>, accs: seq<seq<Node>>)
    requires |outs| == |lines| && |accs| == |lines| + 1
    requires forall i {:trigger Classify(fuel, run, lines[i], data, prefix, accs[i])} :: 0 <= i < |lines| ==>
               Classify(fuel, run, lines[i], data, prefix, accs[i]) == Ok(outs[i], accs[i + 1])
    ensures ResolveAll(fuel, run, lines, data, prefix, accs[0]) == Ok(Flatten(outs), accs[|lines|])
    decreases |lines|
  {
    if |lines| > 0 {
      ChainTail(fuel, run, lines, data, prefix, outs, accs);
      ResolveAllChain(fuel, run, lines[1..], data, prefix, outs[1..], accs[1..]);
      assert Classify(fuel, run, lines[0], data, prefix, accs[0]) == Ok(outs[0], accs[1]);
      ChainStep(fuel, run, lines, data, prefix, outs, accs);
    }
  }

  lemma ChainStep(fuel: nat, run: Run, lines: seq<Line>, data: Blob, prefix: string,
                  outs: seq<seq<Node>>, accs: seq<seq<Node>>)
    requires |lines| > 0 && |outs| == |lines| && |accs| == |lines| + 1
    requires Classify(fuel, run, lines[0], data, prefix, accs[0]) == Ok(outs[0], accs[1])
    requires ResolveAll(fuel, run, lines[1..], data, prefix, accs[1..][0])
             == Ok(Flatten(outs[1..]), accs[1..][|lines[1..]|])
    ensures ResolveAll(fuel, run, lines, data, prefix, accs[0]) == Ok(Flatten(outs), accs[|lines|])
  {
    assert accs[1..][0] == accs[1] && accs[1..][|lines[1..]|] == accs[|lines|];
    ResolveAllStep(fuel, run, lines, data, prefix, accs[0], outs[0], accs[1], Flatten(outs[1..]), accs[|lines|]);
  }

  /** The chain of a body without its first line. */
  lemma ChainTail(fuel: nat, run: Run, lines: seq<Line>, data: Blob, prefix: string,
                  outs: seq<seq<Node>>, accs: seq<seq<Node>>)
    requires |lines| > 0 && |outs| == |lines| && |accs| == |lines| + 1
    requires forall i {:trigger Classify(fuel, run, lines[i], data, prefix, accs[i])} :: 0 <= i < |lines| ==>
               Classify(fuel, run, lines[i], data, prefix, accs[i]) == Ok(outs[i], accs[i + 1])
    ensures forall i {:trigger Classify(fuel, run, lines[1..][i], data, prefix, accs[1..][i])} :: 0 <= i < |lines| - 1 ==>
              Classify(fuel, run, lines[1..][i], data, prefix, accs[1..][i]) == Ok(outs[1..][i], accs[1..][i + 1])
  {
    forall i | 0 <= i < |lines| - 1
      ensures Classify(fuel, run, lines[1..][i], data, prefix, accs[1..][i]) == Ok(outs[1..][i], accs[1..][i + 1])
    {
      assert lines[1..][i] == lines[i + 1] && outs[1..][i] == outs[i + 1];
      assert accs[1..][i] == accs[i + 1] && accs[1..][i + 1] == accs[i + 2];
    }
  }

  /** One step of `ResolveAll`: the first line's nodes, then the rest's. */
  lemma ResolveAllStep(fuel: nat, run: Run, lines: seq<Line>, data: Blob, prefix: string,
                       acc: seq<Node>, x: seq<Node>, acc1: seq<Node>, y: seq<Node>, acc2: seq<Node>)
    requires |lines| > 0
    requires Classify(fuel, run, lines[0], data, prefix, acc) == Ok(x, acc1)
    requires ResolveAll(fuel, run, lines[1..], data, prefix, acc1) == Ok(y, acc2)
    ensures ResolveAll(fuel, run, lines, data, prefix, acc) == Ok(x + y, acc2)
  {
  }

  /** A body of one line resolves to that line's nodes. */
  lemma OneLine(fuel: nat, run: Run, l: Line, data: Blob, prefix: string, acc: seq<Node>, x: seq<Node>,
                acc1: seq<Node>)
    requires Classify(fuel, run, l, data, prefix, acc) == Ok(x, acc1)
    ensures ResolveAll(fuel, run, [l], data, prefix, acc) == Ok(x, acc1)
  {
    assert [l][0] == l && [l][1..] == [];
    ResolveAllStep(fuel, run, [l], data, prefix, acc, x, acc1, [], acc1);
    assert x + [] == x;
  }

  /** A body of two lines resolves to their nodes, in order. */
  lemma TwoLines(fuel: nat, run: Run, a: Line, b: Line, data: Blob, prefix: string, acc: seq<Node>,
                 x: seq<Node>, acc1: seq<Node>, y: seq<Node>, acc2: seq<Node>)
    requires Classify(fuel, run, a, data, prefix, acc) == Ok(x, acc1)
    requires Classify(fuel, run, b, data, prefix, acc1) == Ok(y, acc2)
    ensures ResolveAll(fuel, run, [a, b], data, prefix, acc) == Ok(x + y, acc2)
  {
    assert [a, b][0] == a && [a, b][1..] == [b];
    OneLine(fuel, run, b, data, prefix, acc1, y, acc2);
    ResolveAllStep(fuel, run, [a, b], data, prefix, acc, x, acc1, y, acc2);
  }

  /** Two lines that each classify to one node and leave the accumulator
      alone resolve to those two nodes, in order. */
  lemma TwoSingles(fuel: nat, run: Run, a: Line, b: Line, data: Blob, prefix: string, acc: seq<Node>,
                   na: Node, nb: Node)
    requires Classify(fuel, run, a, data, prefix, acc) == Ok([na], acc)
    requires Classify(fuel, run, b, data, prefix, acc) == Ok([nb], acc)
    ensures ResolveAll(fuel, run, [a, b], data, prefix, acc) == Ok([na, nb], acc)
  {
    TwoLines(fuel, run, a, b, data, prefix, acc, [na], acc, [nb], acc);
    Pair(na, nb);
  }

  lemma Pair<T>(x: T, y: T)
    ensures [x] + [y] == [x, y]
  {
  }

  /** The first line that fails to classify fails the whole body with its
      error. */
  lemma {:induction false} ResolveAllStops(fuel: nat, run: Run, lines: seq<Line>, data: Blob, prefix: string,
                                           outs: seq<seq<Node>>, accs: seq<seq<Node>>, e: Error)
    requires |outs| < |lines| && |accs| == |outs| + 1
    requires forall i :: 0 <= i < |outs| ==>
               Classify(fuel, run, lines[i], data, prefix, accs[i]) == Ok(outs[i], accs[i + 1])
    requires Classify(fuel, run, lines[|outs|], data, prefix, accs[|outs|]) == Err(e)
    ensures ResolveAll(fuel, run, lines, data, prefix, accs[0]) == Err(e)
    decreases |outs|
  {
    if |outs| > 0 {
      assert Classify(fuel, run, lines[0], data, prefix, accs[0]) == Ok(outs[0], accs[1]);
      ResolveAllStops(fuel, run, lines[1..], data, prefix, outs[1..], accs[1..], e);
    }
  }

  /** The variables of a body are the nodes of its recognised lines,
      tagged ones first, each line classified in turn and the results
      concatenated; the first line that fails fails the body. */
  lemma GetVariablesChain(fuel: nat, run: Run, lines: seq<Line>, data: Blob, prefix: string,
                          outs: seq<seq<Node>>, accs: seq<seq<Node>>)
    requires var ls := Ordered(run.dialect, lines);
             && |outs| <= |ls| && |accs| == |outs| + 1
             && forall i :: 0 <= i < |outs| ==>
                  Classify(fuel, run, ls[i], data, prefix, accs[i]) == Ok(outs[i], accs[i + 1])
    ensures var ls := Ordered(run.dialect, lines);
            var r := GetVariables(fuel, run, lines, data, prefix, accs[0]);
            && (|outs| == |ls| ==> r == Ok(Flatten(outs), accs[|outs|]))
            && (|outs| < |ls| && Classify(fuel, run, ls[|outs|], data, prefix, accs[|outs|]).Err? ==>
                  r == Err(Classify(fuel, run, ls[|outs|], data, prefix, accs[|outs|]).error))
  {
    var ls := Ordered(run.dialect, lines);
    if |outs| == |ls| {
      ResolveAllChain(fuel, run, ls, data, prefix, outs, accs);
    } else {
      var c := Classify(fuel, run, ls[|outs|], data, prefix, accs[|outs|]);
      if c.Err? {
        ResolveAllStops(fuel, run, ls, data, prefix, outs, accs, c.error);
      }
    }
  }

  // ---------------------------------------------------------------------
  // The pump sentinel

  /** The pump files of a dependency table, in table order. */
  function PumpBlobs(deps: Deps): seq<Blob> {
    if |deps| == 0 then []
    else (if IsPumpKey(deps[0].0) then [deps[0].1] else []) + PumpBlobs(deps[1..])
  }

  predicate Declared(ps: seq<Blob>) {
    forall i :: 0 <= i < |ps| ==> ps[i].pumpConf.Some?
  }

  /** What one pump contributes: the templates accumulated before it,
      replayed for it, then its own fields under `pumps.<name>.meta.`. */
  function Section(run: Run, b: Blob, acc: seq<Node>, own: seq<Node>): seq<Node>
    requires b.pumpConf.Some?
  {
    var name := b.pumpConf.value.kind;
    Replays(acc, name) + Children(PumpChild, Lower(name), "", "", PumpFieldPrefix, run.pumpPrefix, own)
  }

  function Sections(run: Run, ps: seq<Blob>, accs: seq<seq<Node>>, owns: seq<seq<Node>>): seq<seq<Node>>
    requires Declared(ps) && |accs| >= |ps| && |owns| >= |ps|
  {
    if |ps| == 0 then []
    else [Section(run, ps[0], accs[0], owns[0])] + Sections(run, ps[1..], accs[1..], owns[1..])
  }

  /** Each pump's own struct resolved in turn, each starting from the
      accumulator the previous one left. */
  predicate Resolved(fuel: nat, run: Run, ps: seq<Blob>, owns: seq<seq<Node>>, accs: seq<seq<Node>>)
    requires Declared(ps)
  {
    && |owns| == |ps| && |accs| == |ps| + 1
    && forall i :: 0 <= i < |ps| ==>
         GetStruct(fuel, run, ps[i].pumpConf.value.structName, ps[i], MetaPrefix(ps[i].pumpConf.value.kind),
                   accs[i]) == Ok(Some(owns[i]), accs[i + 1])
  }

  /** The pump sentinel is, pump by pump in table order, the templates
      accumulated so far replayed for that pump followed by the pump's own
      fields; afterwards the JSON path is the last pump's lower-cased name,
      or unchanged when there is no pump. */
  lemma {:induction false} PumpNodesChain(fuel: nat, run: Run, deps: Deps, json: string,
                                          owns: seq<seq<Node>>, accs: seq<seq<Node>>)
    requires Declared(PumpBlobs(deps)) && Resolved(fuel, run, PumpBlobs(deps), owns, accs)
    ensures var ps := PumpBlobs(deps);
            var r := PumpNodes(fuel, run, deps, json, accs[0]);
            && r.Ok? && r.pumps == accs[|ps|]
            && r.value.nodes == Flatten(Sections(run, ps, accs, owns))
            && r.value.json == (if |ps| == 0 then json else Lower(ps[|ps| - 1].pumpConf.value.kind))
    decreases |deps|, 1
  {
    var ps := PumpBlobs(deps);
    if |deps| == 0 {
    } else if !IsPumpKey(deps[0].0) {
      assert ps == PumpBlobs(deps[1..]);
      PumpNodesChain(fuel, run, deps[1..], json, owns, accs);
    } else {
      assert ps == [deps[0].1] + PumpBlobs(deps[1..]);
      PumpStep(fuel, run, deps, json, owns, accs);
    }
  }

  lemma {:induction false} PumpStep(fuel: nat, run: Run, deps: Deps, json: string,
                                    owns: seq<seq<Node>>, accs: seq<seq<Node>>)
    requires |deps| > 0 && IsPumpKey(deps[0].0)
    requires Declared(PumpBlobs(deps)) && Resolved(fuel, run, PumpBlobs(deps), owns, accs)
    ensures var ps := PumpBlobs(deps);
            var r := PumpNodes(fuel, run, deps, json, accs[0]);
            && r.Ok? && r.pumps == accs[|ps|]
            && r.value.nodes == Flatten(Sections(run, ps, accs, owns))
            && r.value.json == (if |ps| == 0 then json else Lower(ps[|ps| - 1].pumpConf.value.kind))
    decreases |deps|, 0
  {
    var ps := PumpBlobs(deps);
    var tail := PumpBlobs(deps[1..]);
    assert ps == [deps[0].1] + tail;
    var blob := deps[0].1;
    assert ps[0] == blob;
    var name := blob.pumpConf.value.kind;
    assert GetStruct(fuel, run, blob.pumpConf.value.structName, blob, MetaPrefix(name), accs[0])
           == Ok(Some(owns[0]), accs[1]);
    assert ps[1..] == tail;
    assert Declared(tail) && Resolved(fuel, run, tail, owns[1..], accs[1..]) by {
      forall i | 0 <= i < |tail|
        ensures tail[i].pumpConf.Some?
        ensures GetStruct(fuel, run, tail[i].pumpConf.value.structName, tail[i],
                          MetaPrefix(tail[i].pumpConf.value.kind), accs[1..][i])
                == Ok(Some(owns[1..][i]), accs[1..][i + 1])
      {
        assert tail[i] == ps[i + 1];
      }
    }
    PumpNodesChain(fuel, run, deps[1..], Lower(name), owns[1..], accs[1..]);
    var mine := Children(PumpChild, Lower(name), "", "", PumpFieldPrefix, run.pumpPrefix, owns[0]);
    var rest := PumpNodes(fuel, run, deps[1..], Lower(name), accs[1]);
    assert PumpNodes(fuel, run, deps, json, accs[0])
           == Ok(Kids(Replays(accs[0], name) + mine + rest.value.nodes, rest.value.json), rest.pumps);
    assert Sections(run, ps, accs, owns)
           == [Section(run, blob, accs[0], owns[0])] + Sections(run, tail, accs[1..], owns[1..]);
    if |tail| > 0 {
      assert tail[|tail| - 1] == ps[|ps| - 1];
    }
  }
}

=== FILE: properties.dfy ===
/** What the flattening engine promises about the nodes of one field and
    about the struct bodies it resolves: a scalar is one variable, a struct
    is its header followed by its children, a slice of a struct is one
    variable with the entries nested, template children go to the pump
    accumulator, the pump sentinel replays the templates for every pump, and
    after the two passes only plain field lines remain. */
module Properties {
  import opened Strings
  import opened Schema
  import opened Fields
  import opened Nodes
  import opened Engine
  import opened Composition
  import opened Passes

  // ---------------------------------------------------------------------
  // Reference definitions

  /** The child node of every inner variable, in order. */
  function ChildList(key: string, map': string, json: string, prefix: string, pumpPrefix: string,
                    vs: seq<Node>): (r: seq<Node>)
    ensures |r| == |vs|
  {
    if |vs| == 0 then []
    else [Child(TypeChild, key, map', json, prefix, pumpPrefix, vs[0])]
         + ChildList(key, map', json, prefix, pumpPrefix, vs[1..])
  }

  /** The templates among `ns`, in order. */
  function Templates(ns: seq<Node>): (r: seq<Node>)
    ensures forall i :: 0 <= i < |r| ==> IsTemplate(r[i]) && r[i] in ns
  {
    if |ns| == 0 then []
    else (if IsTemplate(ns[0]) then [ns[0]] else []) + Templates(ns[1..])
  }

  /** The nodes of `ns` that are not templates, in order. */
  function Plain(ns: seq<Node>): (r: seq<Node>)
    ensures forall i :: 0 <= i < |r| ==> !IsTemplate(r[i]) && r[i] in ns
  {
    if |ns| == 0 then []
    else (if IsTemplate(ns[0]) then [] else [ns[0]]) + Plain(ns[1..])
  }

  predicate NoSentinel(vs: seq<Node>) {
    forall k :: 0 <= k < |vs| ==> vs[k].env != Some(MetaEnv)
  }

  lemma AppendAssoc(a: seq<Node>, b: seq<Node>, c: seq<Node>)
    ensures a + b + c == a + (b + c)
  {
  }

  // ---------------------------------------------------------------------
  // Children of a same-file struct

  /** Without the pump sentinel among the inner variables, the children of a
      struct field are split in two: the plain ones are emitted in order,
      the templates are appended to the accumulator in order, and the JSON
      path is left as it was. */
  lemma {:induction false} ChildNodesPartition(fuel: nat, run: Run, vs: seq<Node>, key: string, map': string,
                                               json: string, prefix: string, acc: seq<Node>)
    requires NoSentinel(vs)
    ensures ChildNodes(fuel, run, vs, key, map', json, prefix, acc)
            == Ok(Kids(Plain(ChildList(key, map', json, prefix, run.pumpPrefix, vs)), json),
                  acc + Templates(ChildList(key, map', json, prefix, run.pumpPrefix, vs)))
    decreases |vs|
  {
    var cs := ChildList(key, map', json, prefix, run.pumpPrefix, vs);
    if |vs| == 0 {
      assert ChildNodes(fuel, run, vs, key, map', json, prefix, acc) == Ok(Kids([], json), acc);
    } else {
      var v := Child(TypeChild, key, map', json, prefix, run.pumpPrefix, vs[0]);
      var tail := ChildList(key, map', json, prefix, run.pumpPrefix, vs[1..]);
      assert cs == [v] + tail;
      if IsTemplate(v) {
        assert Plain(cs) == Plain(tail);
        assert acc + [v] + Templates(tail) == acc + Templates(cs) by {
          assert Templates(cs) == [v] + Templates(tail);
          AppendAssoc(acc, [v], Templates(tail));
        }
        assert ChildNodes(fuel, run, vs[1..], key, map', json, prefix, acc + [v])
               == Ok(Kids(Plain(tail), json), acc + [v] + Templates(tail)) by {
          ChildNodesPartition(fuel, run, vs[1..], key, map', json, prefix, acc + [v]);
        }
        assert ChildNodes(fuel, run, vs, key, map', json, prefix, acc)
               == ChildNodes(fuel, run, vs[1..], key, map', json, prefix, acc + [v]);
      } else {
        var rest := ChildNodes(fuel, run, vs[1..], key, map', json, prefix, acc);
        assert rest == Ok(Kids(Plain(tail), json), acc + Templates(tail)) by {
          ChildNodesPartition(fuel, run, vs[1..], key, map', json, prefix, acc);
        }
        assert ChildNodes(fuel, run, vs, key, map', json, prefix, acc)
               == Ok(Kids([v] + rest.value.nodes, rest.value.json), rest.pumps);
        assert Plain(cs) == [v] + Plain(tail);
        assert Templates(cs) == Templates(tail);
      }
    }
  }

  // ---------------------------------------------------------------------
  // The pump sentinel

  /** The position of the first pump entry of the dependency table. */
  function FirstPump(deps: Deps): (r: Option<nat>)
    ensures r.Some? ==> r.value < |deps| && IsPumpKey(deps[r.value].0)
    ensures r.Some? ==> forall j :: 0 <= j < r.value ==> !IsPumpKey(deps[j].0)
    ensures r.None? ==> forall j :: 0 <= j < |deps| ==> !IsPumpKey(deps[j].0)
  {
    if |deps| == 0 then None
    else if IsPumpKey(deps[0].0) then Some(0)
    else match FirstPump(deps[1..])
      case Some(k) => Some(k + 1)
      case None => None
  }

  /** The position of the last pump entry of the dependency table. */
  function LastPump(deps: Deps): (r: Option<nat>)
    ensures r.Some? ==> r.value < |deps| && IsPumpKey(deps[r.value].0)
    ensures r.Some? ==> forall j :: r.value < j < |deps| ==> !IsPumpKey(deps[j].0)
    ensures r.None? ==> forall j :: 0 <= j < |deps| ==> !IsPumpKey(deps[j].0)
  {
    if |deps| == 0 then None
    else match LastPump(deps[1..])
      case Some(k) => Some(k + 1)
      case None => if IsPumpKey(deps[0].0) then Some(0) else None
  }

  /** A table without pump entries contributes nothing and leaves the JSON
      path alone. With pump entries, each must carry a pump declaration, and
      the JSON path afterwards is the lower-cased name of the last pump. */
  lemma {:induction false} PumpNodesJson(fuel: nat, run: Run, deps: Deps, json: string, acc: seq<Node>)
    ensures LastPump(deps).None? ==> PumpNodes(fuel, run, deps, json, acc) == Ok(Kids([], json), acc)
    ensures PumpNodes(fuel, run, deps, json, acc).Ok? ==>
              forall k :: 0 <= k < |deps| && IsPumpKey(deps[k].0) ==> deps[k].1.pumpConf.Some?
    ensures PumpNodes(fuel, run, deps, json, acc).Ok? && LastPump(deps).Some? ==>
              var k := LastPump(deps).value;
              deps[k].1.pumpConf.Some?
              && PumpNodes(fuel, run, deps, json, acc).value.json == Lower(deps[k].1.pumpConf.value.kind)
    decreases |deps|
  {
    if |deps| > 0 {
      var r := PumpNodes(fuel, run, deps, json, acc);
      if !IsPumpKey(deps[0].0) {
        PumpNodesJson(fuel, run, deps[1..], json, acc);
        assert r == PumpNodes(fuel, run, deps[1..], json, acc);
        if r.Ok? {
          forall k | 0 <= k < |deps| && IsPumpKey(deps[k].0) ensures deps[k].1.pumpConf.Some? {
            assert deps[1..][k - 1] == deps[k];
          }
        }
      } else if deps[0].1.pumpConf.Some? {
        var blob := deps[0].1;
        var name := blob.pumpConf.value.kind;
        var own := GetStruct(fuel, run, blob.pumpConf.value.structName, blob, MetaPrefix(name), acc);
        if own.Ok? && own.value.Some? {
          PumpNodesJson(fuel, run, deps[1..], Lower(name), own.pumps);
          var rest := PumpNodes(fuel, run, deps[1..], Lower(name), own.pumps);
          assert r.Ok? ==> rest.Ok? && r.value.json == rest.value.json;
          if r.Ok? {
            forall k | 0 <= k < |deps| && IsPumpKey(deps[k].0) ensures deps[k].1.pumpConf.Some? {
              if k > 0 {
                assert deps[1..][k - 1] == deps[k];
              }
            }
          }
        }
      }
    }
  }

  /** The nodes of the pump sentinel begin with every template accumulated
      so far, replayed for the first pump of the table. */
  lemma {:induction false} PumpNodesReplayFirst(fuel: nat, run: Run, deps: Deps, json: string, acc: seq<Node>)
    requires FirstPump(deps).Some?
    ensures PumpNodes(fuel, run, deps, json, acc).Ok? ==>
              var first := deps[FirstPump(deps).value].1;
              && first.pumpConf.Some?
              && |acc| <= |PumpNodes(fuel, run, deps, json, acc).value.nodes|
              && forall i :: 0 <= i < |acc| ==>
                   PumpNodes(fuel, run, deps, json, acc).value.nodes[i] == Replay(acc[i], first.pumpConf.value.kind)
    decreases |deps|
  {
    if !IsPumpKey(deps[0].0) {
      PumpNodesReplayFirst(fuel, run, deps[1..], json, acc);
      assert deps[1..][FirstPump(deps[1..]).value] == deps[FirstPump(deps).value];
    }
  }

  // ---------------------------------------------------------------------
  // The nodes of one field

  /** A type the generator knows nothing about is a scalar: one variable
      named after the field, with the environment name `<prefix>_<NAME>`,
      the tag's JSON name (or the field name with its first `_` made a
      `.`), required unless `omitempty`, and the aliased type or the map
      declarator put back in front. No template is accumulated. */
  lemma ScalarField(fuel: nat, run: Run, l: Line, data: Blob, prefix: string, acc: seq<Node>)
    requires var t := SplitMap(l.typ).1;
             !InFile(t, data) && !SliceInFile(t, data) && Lookup(run.deps, t).None?
    ensures var r := Classify(fuel, run, l, data, prefix, acc);
            && r.Ok? && r.pumps == acc && |r.value| == 1
            && r.value[0].flavour == Some(Variable)
            && r.value[0].key == l.name
            && r.value[0].env == Some(prefix + "_" + Upper(l.name))
            && r.value[0].json == (if IsTagged(l) then l.tag.value.json else ReplaceFirst(l.name, "_", "."))
            && r.value[0].required == Some(l.tag.None? || !IsTagged(l) || !l.tag.value.omitEmpty)
            && r.value[0].typ == (if Alias(SplitMap(l.typ).1).Some? then Alias(SplitMap(l.typ).1).value
                                  else SplitMap(l.typ).0 + SplitMap(l.typ).1)
            && r.value[0].nested.None?
  {
    FieldMetadata(l);
  }

  /** A field whose type is a struct of the same file is its header (no
      environment name, the struct's name as type) followed by the plain
      children; the template children go to the accumulator. Without the
      pump sentinel the header keeps the field's own JSON name. */
  lemma StructField(fuel: nat, run: Run, l: Line, data: Blob, prefix: string, acc: seq<Node>,
                    vs: seq<Node>, acc': seq<Node>)
    requires InFile(SplitMap(l.typ).1, data)
    requires GetStruct(fuel, run, Deref(SplitMap(l.typ).1), data, prefix, acc) == Ok(Some(vs), acc')
    requires NoSentinel(vs)
    ensures var r := Classify(fuel, run, l, data, prefix, acc);
            var cs := ChildList(l.name, SplitMap(l.typ).0, JsonName(l), prefix, run.pumpPrefix, vs);
            && r.Ok? && |r.value| >= 1
            && r == Ok([r.value[0]] + Plain(cs), acc' + Templates(cs))
            && r.value[0].flavour == Some(Header)
            && r.value[0].key == l.name
            && r.value[0].json == JsonName(l)
            && r.value[0].env.None?
            && r.value[0].typ == SplitMap(l.typ).1
            && r.value[0].required == Some(Required(l))
  {
    ChildNodesPartition(fuel, run, vs, l.name, SplitMap(l.typ).0, JsonName(l), prefix, acc');
  }

  /** A field whose struct holds the pump sentinel once: its header, the
      plain children before the sentinel, the nodes of every pump, then the
      plain children after it. The pumps see the templates of the children
      before the sentinel; the children after it, and the header, carry
      the JSON path the pump branch leaves behind. A failing pump fails the
      field. */
  lemma StructFieldPumps(fuel: nat, run: Run, l: Line, data: Blob, prefix: string, acc: seq<Node>,
                         pre: seq<Node>, s: Node, post: seq<Node>, acc': seq<Node>)
    requires InFile(SplitMap(l.typ).1, data)
    requires GetStruct(fuel, run, Deref(SplitMap(l.typ).1), data, prefix, acc) == Ok(Some(pre + [s] + post), acc')
    requires NoSentinel(pre) && s.env == Some(MetaEnv) && NoSentinel(post)
    ensures var r := Classify(fuel, run, l, data, prefix, acc);
            var cpre := ChildList(l.name, SplitMap(l.typ).0, JsonName(l), prefix, run.pumpPrefix, pre);
            var p := PumpNodes(fuel, run, run.deps, JsonName(l), acc' + Templates(cpre));
            && (p.Err? ==> r == Err(p.error))
            && (p.Ok? ==>
                  var cpost := ChildList(l.name, SplitMap(l.typ).0, p.value.json, prefix, run.pumpPrefix, post);
                  && r.Ok? && |r.value| >= 1
                  && r == Ok([r.value[0]] + Plain(cpre) + p.value.nodes + Plain(cpost), p.pumps + Templates(cpost))
                  && r.value[0].flavour == Some(Header)
                  && r.value[0].key == l.name
                  && r.value[0].json == p.value.json
                  && r.value[0].env.None?
                  && r.value[0].typ == SplitMap(l.typ).1
                  && r.value[0].required == Some(Required(l)))
  {
    ChildNodesSentinel(fuel, run, pre, s, post, l.name, SplitMap(l.typ).0, JsonName(l), prefix, acc');
    var cpre := ChildList(l.name, SplitMap(l.typ).0, JsonName(l), prefix, run.pumpPrefix, pre);
    var p := PumpNodes(fuel, run, run.deps, JsonName(l), acc' + Templates(cpre));
    if p.Ok? {
      var cpost := ChildList(l.name, SplitMap(l.typ).0, p.value.json, prefix, run.pumpPrefix, post);
      var h := HeaderNode(Read(l), p.value.json, SplitMap(l.typ).1);
      AppendAssoc([h], Plain(cpre) + p.value.nodes, Plain(cpost));
      AppendAssoc([h], Plain(cpre), p.value.nodes);
      AppendAssoc(Plain(cpre), p.value.nodes, Plain(cpost));
    }
  }

  /** The children of a struct whose variables hold the pump sentinel once:
      the plain children before it, the nodes of every pump (which see the
      templates gathered so far), then the plain children after it, built
      with the JSON path the pumps leave behind. */
  lemma ChildNodesSentinel(fuel: nat, run: Run, pre: seq<Node>, s: Node, post: seq<Node>, key: string,
                           map': string, json: string, prefix: string, acc: seq<Node>)
    requires NoSentinel(pre) && s.env == Some(MetaEnv) && NoSentinel(post)
    ensures var cpre := ChildList(key, map', json, prefix, run.pumpPrefix, pre);
            var p := PumpNodes(fuel, run, run.deps, json, acc + Templates(cpre));
            ChildNodes(fuel, run, pre + [s] + post, key, map', json, prefix, acc)
            == if p.Err? then Err(p.error)
               else
                 var cpost := ChildList(key, map', p.value.json, prefix, run.pumpPrefix, post);
                 Ok(Kids(Plain(cpre) + (p.value.nodes + Plain(cpost)), p.value.json), p.pumps + Templates(cpost))
  {
    var rest := [s] + post;
    assert pre + [s] + post == pre + rest;
    ChildNodesPrefix(fuel, run, pre, rest, key, map', json, prefix, acc);
    var cpre := ChildList(key, map', json, prefix, run.pumpPrefix, pre);
    var p := PumpNodes(fuel, run, run.deps, json, acc + Templates(cpre));
    assert rest[0] == s && rest[1..] == post;
    if p.Ok? {
      ChildNodesPartition(fuel, run, post, key, map', p.value.json, prefix, p.pumps);
    }
  }

  /** Children before any sentinel are emitted or accumulated one by one,
      whatever follows them: the rest is resolved from the accumulator they
      leave, and its nodes follow theirs. */
  lemma {:induction false} ChildNodesPrefix(fuel: nat, run: Run, pre: seq<Node>, rest: seq<Node>, key: string,
                                            map': string, json: string, prefix: string, acc: seq<Node>)
    requires NoSentinel(pre)
    ensures var cpre := ChildList(key, map', json, prefix, run.pumpPrefix, pre);
            var r := ChildNodes(fuel, run, rest, key, map', json, prefix, acc + Templates(cpre));
            ChildNodes(fuel, run, pre + rest, key, map', json, prefix, acc)
            == if r.Err? then Err(r.error) else Ok(Kids(Plain(cpre) + r.value.nodes, r.value.json), r.pumps)
    decreases |pre|
  {
    var cpre := ChildList(key, map', json, prefix, run.pumpPrefix, pre);
    if |pre| == 0 {
      assert pre + rest == rest;
      assert acc + Templates(cpre) == acc;
      var r := ChildNodes(fuel, run, rest, key, map', json, prefix, acc);
      if r.Ok? {
        assert Plain(cpre) + r.value.nodes == r.value.nodes;
        assert r == Ok(Kids(r.value.nodes, r.value.json), r.pumps);
      }
    } else {
      var v := Child(TypeChild, key, map', json, prefix, run.pumpPrefix, pre[0]);
      var tail := ChildList(key, map', json, prefix, run.pumpPrefix, pre[1..]);
      assert cpre == [v] + tail;
      assert (pre + rest)[0] == pre[0] && (pre + rest)[1..] == pre[1..] + rest;
      ChildStep(fuel, run, pre + rest, key, map', json, prefix, acc);
      if IsTemplate(v) {
        ChildNodesPrefix(fuel, run, pre[1..], rest, key, map', json, prefix, acc + [v]);
        assert Plain(cpre) == Plain(tail);
        assert acc + [v] + Templates(tail) == acc + Templates(cpre) by {
          assert Templates(cpre) == [v] + Templates(tail);
          AppendAssoc(acc, [v], Templates(tail));
        }
      } else {
        ChildNodesPrefix(fuel, run, pre[1..], rest, key, map', json, prefix, acc);
        assert Plain(cpre) == [v] + Plain(tail);
        assert Templates(cpre) == Templates(tail);
        var r := ChildNodes(fuel, run, rest, key, map', json, prefix, acc + Templates(cpre));
        if r.Ok? {
          AppendAssoc([v], Plain(tail), r.value.nodes);
        }
      }
    }
  }

  /** One child that is not the sentinel: a template is accumulated, any
      other child is emitted before the rest. */
  lemma ChildStep(fuel: nat, run: Run, kids: seq<Node>, key: string, map': string, json: string,
                  prefix: string, acc: seq<Node>)
    requires |kids| > 0 && kids[0].env != Some(MetaEnv)
    ensures var v := Child(TypeChild, key, map', json, prefix, run.pumpPrefix, kids[0]);
            var rest := ChildNodes(fuel, run, kids[1..], key, map', json, prefix, acc);
            ChildNodes(fuel, run, kids, key, map', json, prefix, acc)
            == if IsTemplate(v) then ChildNodes(fuel, run, kids[1..], key, map', json, prefix, acc + [v])
               else if rest.Err? then Err(rest.error)
               else Ok(Kids([v] + rest.value.nodes, rest.value.json), rest.pumps)
  {
  }

  /** A field whose type is a slice of a same-file struct is one variable
      without environment name whose nested list holds one entry per inner
      variable, keeping its key and JSON path, without environment name or
      flavour; no template is accumulated on its behalf. */
  lemma ArrayField(fuel: nat, run: Run, l: Line, data: Blob, prefix: string, acc: seq<Node>,
                   vs: seq<Node>, acc': seq<Node>)
    requires var t := SplitMap(l.typ).1;
             && !InFile(t, data) && SliceInFile(t, data)
             && GetStruct(fuel, run, Deref(t[2..]), data, prefix, acc) == Ok(Some(vs), acc')
    ensures var r := Classify(fuel, run, l, data, prefix, acc);
            && r.Ok? && r.pumps == acc' && |r.value| == 1
            && r.value[0].flavour == Some(Variable)
            && r.value[0].key == l.name
            && r.value[0].json == JsonName(l)
            && r.value[0].env.None?
            && r.value[0].typ == SplitMap(l.typ).1
            && r.value[0].nested.Some? && |r.value[0].nested.value| == |vs|
            && forall k :: 0 <= k < |vs| ==>
                 var e := r.value[0].nested.value[k];
                 e.key == vs[k].key && e.json == vs[k].json && e.env.None? && e.flavour.None?
  {
  }

  /** A field whose type names a dependency is its header, carrying the
      field's own JSON name, followed by the child of every variable of the
      dependency's struct, in order. None of them is held back: even in the
      pump table, where every child is a template, they are all emitted and
      the accumulator is the one the dependency's struct left. Outside the
      pump table each child is keyed `<field>_<inner>` and its environment
      name is the prefix and its upper-cased key. */
  lemma DependencyField(fuel: nat, run: Run, l: Line, data: Blob, prefix: string, acc: seq<Node>,
                        b: Blob, vs: seq<Node>, acc': seq<Node>)
    requires var t := SplitMap(l.typ).1;
             && !InFile(t, data) && !SliceInFile(t, data)
             && Lookup(run.deps, t) == Some(b)
             && GetStruct(fuel, run, DependencyStruct(t), b, prefix, acc) == Ok(Some(vs), acc')
    ensures var r := Classify(fuel, run, l, data, prefix, acc);
            && r.Ok? && r.pumps == acc' && |r.value| == 1 + |vs|
            && r.value[0].flavour == Some(Header)
            && r.value[0].json == JsonName(l)
            && r.value[0].env.None?
            && (forall j :: 1 <= j < |r.value| ==>
                  r.value[j] == Child(TypeChild, l.name, SplitMap(l.typ).0, JsonName(l), prefix, run.pumpPrefix, vs[j - 1]))
            && (PumpTable(l.name, prefix, run.pumpPrefix) ==>
                  forall j :: 1 <= j < |r.value| ==> IsTemplate(r.value[j]))
            && (!PumpTable(l.name, prefix, run.pumpPrefix) ==>
                  forall j :: 1 <= j < |r.value| ==>
                    && r.value[j].key == l.name + "_" + vs[j - 1].key
                    && r.value[j].json == JsonName(l) + "." + vs[j - 1].json
                    && r.value[j].env == Some(prefix + "_" + Upper(r.value[j].key)))
  {
    var t, map' := SplitMap(l.typ).1, SplitMap(l.typ).0;
    var f := Read(l);
    var children := Children(TypeChild, f.key, map', f.json, prefix, run.pumpPrefix, vs);
    var r := Classify(fuel, run, l, data, prefix, acc);
    assert r == DependencyNodes(fuel, run, l, b, prefix, acc);
    assert r == Ok([HeaderNode(f, f.json, t)] + children, acc') by {
      assert DependencyNodes(fuel, run, l, b, prefix, acc) == Ok([HeaderNode(f, f.json, t)] + children, acc');
    }
    assert f.key == l.name && f.json == JsonName(l);
    HeaderThenChildren(l.name, map', JsonName(l), prefix, run.pumpPrefix, vs, HeaderNode(f, f.json, t), r.value);
  }

  /** A header followed by the children of `vs`: each child is built from
      its variable; in the pump table every child is a template, outside it
      the children's names are the inner names under the field's. */
  lemma HeaderThenChildren(key: string, map': string, json: string, prefix: string, pumpPrefix: string,
                           vs: seq<Node>, header: Node, ns: seq<Node>)
    requires ns == [header] + Children(TypeChild, key, map', json, prefix, pumpPrefix, vs)
    ensures |ns| == 1 + |vs|
    ensures forall j :: 1 <= j < |ns| ==> ns[j] == Child(TypeChild, key, map', json, prefix, pumpPrefix, vs[j - 1])
    ensures PumpTable(key, prefix, pumpPrefix) ==> forall j :: 1 <= j < |ns| ==> IsTemplate(ns[j])
    ensures !PumpTable(key, prefix, pumpPrefix) ==>
              forall j :: 1 <= j < |ns| ==>
                && ns[j].key == key + "_" + vs[j - 1].key
                && ns[j].json == json + "." + vs[j - 1].json
                && ns[j].env == Some(prefix + "_" + Upper(ns[j].key))
  {
    var children := Children(TypeChild, key, map', json, prefix, pumpPrefix, vs);
    forall j | 1 <= j < |ns|
      ensures ns[j] == Child(TypeChild, key, map', json, prefix, pumpPrefix, vs[j - 1])
    {
      assert ns[j] == children[j - 1];
    }
    if PumpTable(key, prefix, pumpPrefix) {
      forall j | 1 <= j < |ns|
        ensures IsTemplate(ns[j])
      {
        PumpTableChild(map', json, pumpPrefix, vs[j - 1]);
      }
    } else {
      forall j | 1 <= j < |ns|
        ensures ns[j].key == key + "_" + vs[j - 1].key
        ensures ns[j].json == json + "." + vs[j - 1].json
        ensures ns[j].env == Some(prefix + "_" + Upper(ns[j].key))
      {
        TypeChildNames(key, map', json, prefix, pumpPrefix, vs[j - 1]);
      }
    }
  }

  // ---------------------------------------------------------------------
  // The passes over a struct body

  /** After inlining the tagged blocks, then the untagged ones, then
      expanding the directives, only plain field lines remain. */
  lemma PassesLeaveFieldLines(fuel: nat, run: Run, items: seq<Item>, data: Blob, prefix: string, acc: seq<Node>)
    ensures var a := InlinePass(fuel, run, true, items, data, prefix, acc);
            a.Ok? ==>
              var b := InlinePass(fuel, run, false, a.value, data, prefix, a.pumps);
              b.Ok? ==>
                var c := ExpandPass(fuel, run, b.value, prefix, [], b.pumps);
                c.Ok? ==> forall i :: 0 <= i < |c.value| ==> c.value[i].FieldItem?
  {
    var a := InlinePass(fuel, run, true, items, data, prefix, acc);
    if a.Ok? {
      var b := InlinePass(fuel, run, false, a.value, data, prefix, a.pumps);
      if b.Ok? {
        InlinePassOrigin(fuel, run, false, a.value, data, prefix, a.pumps);
        NoBlocksLeft(b.value, a.value);
        ExpandPassOrigin(fuel, run, b.value, prefix, [], b.pumps);
      }
    }
  }

  /** A directive whose dependency is present becomes one line per variable
      of the dependency's struct. */
  lemma ExpandedDirective(fuel: nat, run: Run, target: string, blob: Blob, prefix: string, parsed: seq<Line>,
                          acc: seq<Node>, vs: seq<Node>, acc': seq<Node>)
    requires Lookup(run.deps, target) == Some(blob)
    requires GetStruct(fuel, run, LastSegment(target), blob, prefix, acc) == Ok(Some(vs), acc')
    ensures ExpandPass(fuel, run, [ExpandItem(target)], prefix, parsed, acc) == Ok(AsItems(ExpandLines(vs)), acc')
    ensures forall k :: 0 <= k < |vs| ==>
              && Read(ExpandLines(vs)[k]).key == vs[k].key
              && Read(ExpandLines(vs)[k]).typ == vs[k].typ
              && Read(ExpandLines(vs)[k]).required
    ensures forall k :: 0 <= k < |vs| && |vs[k].json| > 0 && (forall i :: 0 <= i < |vs[k].json| ==> JsonChar(vs[k].json[i])) ==>
              Read(ExpandLines(vs)[k]).json == vs[k].json
  {
    var items := [ExpandItem(target)];
    assert items[1..] == [];
    assert ExpandPass(fuel, run, items[1..], prefix, ExpandLines(vs), acc') == Ok([], acc');
    assert AsItems(ExpandLines(vs)) + [] == AsItems(ExpandLines(vs));
    ExpandedLinesRead(vs);
  }

  /** Expanded lines keep each variable's own key, type and JSON path. */
  lemma ExpandedLinesRead(vs: seq<Node>)
    ensures forall k :: 0 <= k < |vs| ==>
              && Read(ExpandLines(vs)[k]).key == vs[k].key
              && Read(ExpandLines(vs)[k]).typ == vs[k].typ
              && Read(ExpandLines(vs)[k]).required
    ensures forall k :: 0 <= k < |vs| && |vs[k].json| > 0 && (forall i :: 0 <= i < |vs[k].json| ==> JsonChar(vs[k].json[i])) ==>
              Read(ExpandLines(vs)[k]).json == vs[k].json
  {
  }

  /** A directive whose dependency is missing is replaced by the lines the
      previous directive produced: by nothing when it comes first, and by a
      second copy of the previous expansion otherwise. */
  lemma StaleExpansion(fuel: nat, run: Run, a: string, b: string, blob: Blob, prefix: string,
                       acc: seq<Node>, vs: seq<Node>, acc': seq<Node>)
    requires Lookup(run.deps, a) == Some(blob) && Lookup(run.deps, b).None?
    requires GetStruct(fuel, run, LastSegment(a), blob, prefix, acc) == Ok(Some(vs), acc')
    ensures ExpandPass(fuel, run, [ExpandItem(b)], prefix, [], acc) == Ok([], acc)
    ensures ExpandPass(fuel, run, [ExpandItem(a), ExpandItem(b)], prefix, [], acc)
            == Ok(AsItems(ExpandLines(vs)) + AsItems(ExpandLines(vs)), acc')
  {
    MissingDirective(fuel, run, b, prefix, [], acc);
    MissingDirective(fuel, run, b, prefix, ExpandLines(vs), acc');
    var items := [ExpandItem(a), ExpandItem(b)];
    assert items[1..] == [ExpandItem(b)];
  }

  /** A directive without its dependency becomes the lines `parsed`. */
  lemma MissingDirective(fuel: nat, run: Run, b: string, prefix: string, parsed: seq<Line>, acc: seq<Node>)
    requires Lookup(run.deps, b).None?
    ensures ExpandPass(fuel, run, [ExpandItem(b)], prefix, parsed, acc) == Ok(AsItems(parsed), acc)
  {
    assert [ExpandItem(b)][1..] == [];
    assert AsItems(parsed) + [] == AsItems(parsed);
  }

  /** A body made only of field lines loses none of them to the resolver. */
  lemma {:induction false} FieldLinesKeepAll(items: seq<Item>)
    requires forall i :: 0 <= i < |items| ==> items[i].FieldItem?
    ensures AsItems(FieldLines(items)) == items
  {
    if |items| > 0 {
      FieldLinesKeepAll(items[1..]);
      assert FieldLines(items) == [items[0].line] + FieldLines(items[1..]);
      assert AsItems(FieldLines(items)) == [items[0]] + AsItems(FieldLines(items[1..]));
      assert [items[0]] + items[1..] == items;
    }
  }
}

=== FILE: schema.dfy ===
/** The data model of the configuration generator: lexed struct bodies,
    source blobs, and the variable nodes the generator emits. */
module Schema {
  import opened Strings

  /** A `json:"name"` struct tag, with or without `,omitempty`. */
  datatype Tag = Tag(json: string, omitEmpty: bool)

  /** One field line of a struct body, already lexed: the comment lines
      directly above it (each the text after `//`), the field name, the
      declared type, and the JSON tag when the line has one. */
  datatype Line = Line(comment: seq<string>, name: string, typ: string, tag: Option<Tag>)

  /** What a struct body is made of, in source order: plain field lines,
      anonymous nested struct blocks (`Key struct { ... }`, with the tag on
      the closing brace when there is one), and `// TYKCONFIGEXPAND`
      directives naming the type to expand.

      A `NestedItem` stands for a block the block patterns select, which
      needs at least one character between its braces: a block written
      `Key struct {` directly followed by its closing line is lexed as the
      field line `Key struct`, as the field patterns read it. */
  datatype Item =
    | FieldItem(line: Line)
    | NestedItem(comment: seq<string>, key: string, tag: Option<Tag>, body: seq<Line>)
    | ExpandItem(target: string)

  /** A `// @PumpConf Kind` marker in front of `type StructName struct {`. */
  datatype PumpConf = PumpConf(kind: string, structName: string)

  /** One source file: the struct declarations the locator finds in it,
      lexed, and its pump declaration if it has one. */
  datatype Blob = Blob(structs: map<string, seq<Item>>, pumpConf: Option<PumpConf>)

  /** The dependency table, in the insertion order of the source's object
      (the order `Object.keys` walks). An object has no repeated key, so a
      table built from one has none either; `Lookup` takes the first entry
      with the key, which is then the only one. */
  type Deps = seq<(string, Blob)>

  function Lookup(deps: Deps, key: string): (r: Option<Blob>)
    ensures r.Some? <==> exists k :: 0 <= k < |deps| && deps[k].0 == key
  {
    if |deps| == 0 then None
    else if deps[0].0 == key then Some(deps[0].1)
    else Lookup(deps[1..], key)
  }

  /** A field descriptor: what the field resolver reads off a line. */
  datatype Field = Field(description: Option<string>, key: string, typ: string, json: string, required: bool)

  datatype Flavour = Header | Variable

  /** An emitted node. Absent JavaScript properties are `None`: headers and
      array entries carry no `env`, array entries no `flavour`, replayed
      pump templates no `required`, and only array-typed variables carry
      `nested`. */
  datatype Node = Node(
    flavour: Option<Flavour>,
    description: Option<string>,
    key: string,
    json: string,
    env: Option<string>,
    typ: string,
    required: Option<bool>,
    nested: Option<seq<Node>>)

  /** The generator as written, or with the two lexing defects listed in
      the README corrected. */
  datatype Dialect = AsWritten | Corrected
}

=== FILE: strings.dfy ===
/** Small string toolkit used by the configuration generator model: the
    JavaScript string operations the generator relies on (`replace` with a
    string pattern, `toUpperCase`, `toLowerCase`, `trim`, `split`, `join`),
    restated over `seq<char>`. */
module Strings {

  datatype Option<+T> = None | Some(value: T)

  /** `\w` of a JavaScript regular expression without the `u` flag. */
  predicate IsWordChar(c: char) {
    ('a' <= c <= 'z') || ('A' <= c <= 'Z') || ('0' <= c <= '9') || c == '_'
  }

  predicate IsWordString(s: string) {
    forall i :: 0 <= i < |s| ==> IsWordChar(s[i])
  }

  /** True when `pat` occurs in `s` starting at index `j`. */
  predicate OccursAt(s: string, pat: string, j: nat) {
    j + |pat| <= |s| && s[j..j + |pat|] == pat
  }

  /** Index of the first occurrence of `pat` in `s` at or after `from`. */
  function IndexOfFrom(s: string, pat: string, from: nat): (r: Option<nat>)
    requires from <= |s|
    ensures r.Some? ==> from <= r.value && OccursAt(s, pat, r.value)
    ensures r.Some? ==> forall j :: from <= j < r.value ==> !OccursAt(s, pat, j)
    ensures r.None? ==> forall j :: from <= j <= |s| ==> !OccursAt(s, pat, j)
    decreases |s| - from
  {
    if from + |pat| > |s| then None
    else if s[from..from + |pat|] == pat then Some(from)
    else if from == |s| then None
    else IndexOfFrom(s, pat, from + 1)
  }

  function IndexOf(s: string, pat: string): Option<nat> {
    IndexOfFrom(s, pat, 0)
  }

  /** `s.includes(pat)`. */
  predicate Contains(s: string, pat: string) {
    IndexOf(s, pat).Some?
  }

  /** `s.replace(pat, rep)` with a string pattern: only the first occurrence
      is replaced; a string without `pat` is returned unchanged. */
  function ReplaceFirst(s: string, pat: string, rep: string): string {
    match IndexOf(s, pat)
    case Some(i) => s[..i] + rep + s[i + |pat|..]
    case None => s
  }

  /** When `pat` does not occur in `a`, replacing the first `pat` of
      `a + pat + b` replaces exactly the `pat` written between them. */
  lemma ReplaceFirstSplit(a: string, pat: string, b: string, rep: string)
    requires forall j :: 0 <= j <= |a| ==> !OccursAt(a + pat, pat, j) || j == |a|
    ensures ReplaceFirst(a + pat + b, pat, rep) == a + rep + b
  {
    var s := a + pat + b;
    assert OccursAt(s, pat, |a|) by {
      assert s[|a|..|a| + |pat|] == pat;
    }
    forall j | 0 <= j < |a|
      ensures !OccursAt(s, pat, j)
    {
      if OccursAt(s, pat, j) {
        assert s[j..j + |pat|] == (a + pat)[j..j + |pat|];
        assert OccursAt(a + pat, pat, j);
      }
    }
    var r := IndexOf(s, pat);
    assert r == Some(|a|);
    assert s[..|a|] == a;
    assert s[|a| + |pat|..] == b;
  }

  /** Replacing a single character by a single character keeps the length,
      changes the first occurrence only, and leaves every other position. */
  lemma ReplaceFirstChar(s: string, c: char, d: char)
    ensures |ReplaceFirst(s, [c], [d])| == |s|
    ensures forall k :: 0 <= k < |s| && s[k] != c ==> ReplaceFirst(s, [c], [d])[k] == s[k]
    ensures c in s ==>
              exists k ::
                && 0 <= k < |s| && s[k] == c && ReplaceFirst(s, [c], [d])[k] == d
                && (forall j :: 0 <= j < k ==> s[j] != c)
                && (forall j :: 0 <= j < |s| && j != k ==> ReplaceFirst(s, [c], [d])[j] == s[j])
    ensures c !in s ==> ReplaceFirst(s, [c], [d]) == s
  {
    match IndexOf(s, [c])
    case Some(i) =>
      assert s[i..i + 1] == [c];
      assert s[i] == c;
      forall j | 0 <= j < i ensures s[j] != c {
        assert !OccursAt(s, [c], j);
        assert s[j..j + 1] == [s[j]];
      }
    case None =>
      forall k | 0 <= k < |s| ensures s[k] != c {
        assert !OccursAt(s, [c], k);
        assert s[k..k + 1] == [s[k]];
      }
  }

  function UpperChar(c: char): char {
    if 'a' <= c <= 'z' then (c as int - 32) as char else c
  }

  function LowerChar(c: char): char {
    if 'A' <= c <= 'Z' then (c as int + 32) as char else c
  }

  /** `toUpperCase` on ASCII letters. */
  function Upper(s: string): (r: string)
    ensures |r| == |s|
    ensures forall i :: 0 <= i < |s| ==> r[i] == UpperChar(s[i])
  {
    seq(|s|, i requires 0 <= i < |s| => UpperChar(s[i]))
  }

  /** `toLowerCase` on ASCII letters. */
  function Lower(s: string): (r: string)
    ensures |r| == |s|
    ensures forall i :: 0 <= i < |s| ==> r[i] == LowerChar(s[i])
  {
    seq(|s|, i requires 0 <= i < |s| => LowerChar(s[i]))
  }

  lemma UpperAppend(a: string, b: string)
    ensures Upper(a + b) == Upper(a) + Upper(b)
  {
    assert forall i :: 0 <= i < |a + b| ==> Upper(a + b)[i] == (Upper(a) + Upper(b))[i];
  }

  /** Upper-casing twice is upper-casing once. */
  lemma UpperIdempotent(s: string)
    ensures Upper(Upper(s)) == Upper(s)
  {
    assert forall i :: 0 <= i < |s| ==> Upper(Upper(s))[i] == Upper(s)[i];
  }

  /** The characters `String.prototype.trim` removes, restricted to ASCII. */
  predicate IsSpace(c: char) {
    c == ' ' || c == '\t' || c == '\n' || c == '\r' || c == '\U{B}' || c == '\U{C}'
  }

  function TrimStart(s: string): (r: string)
    ensures |r| <= |s|
    ensures r == s[|s| - |r|..]
    ensures |r| > 0 ==> !IsSpace(r[0])
    ensures forall i :: 0 <= i < |s| - |r| ==> IsSpace(s[i])
  {
    if |s| > 0 && IsSpace(s[0]) then TrimStart(s[1..]) else s
  }

  function TrimEnd(s: string): (r: string)
    ensures |r| <= |s|
    ensures r == s[..|r|]
    ensures |r| > 0 ==> !IsSpace(r[|r| - 1])
    ensures forall i :: |r| <= i < |s| ==> IsSpace(s[i])
  {
    if |s| > 0 && IsSpace(s[|s| - 1]) then TrimEnd(s[..|s| - 1]) else s
  }

  /** `s.trim()`. */
  function Trim(s: string): (r: string)
    ensures |r| <= |s|
    ensures |r| > 0 ==> !IsSpace(r[0]) && !IsSpace(r[|r| - 1])
  {
    TrimEnd(TrimStart(s))
  }

  /** `parts.join(sep)` with a one-character separator. */
  function Join(parts: seq<string>, sep: char): string
  {
    if |parts| == 0 then ""
    else if |parts| == 1 then parts[0]
    else parts[0] + [sep] + Join(parts[1..], sep)
  }

  /** `s.split(sep)` with a one-character separator: always at least one
      part, and an empty part where two separators are adjacent. */
  function Split(s: string, sep: char): (r: seq<string>)
    ensures |r| >= 1
    decreases |s|
  {
    match IndexOf(s, [sep])
    case Some(i) => [s[..i]] + Split(s[i + 1..], sep)
    case None => [s]
  }

  lemma NoSepNoOccurrence(s: string, sep: char)
    requires sep !in s
    ensures IndexOf(s, [sep]).None?
  {
    forall j | 0 <= j <= |s| ensures !OccursAt(s, [sep], j) {
      if j < |s| {
        assert s[j..j + 1] == [s[j]];
      }
    }
  }

  /** Splitting a join recovers the parts, as long as no part contains the
      separator. */
  lemma {:induction false} SplitJoin(parts: seq<string>, sep: char)
    requires |parts| >= 1
    requires forall k :: 0 <= k < |parts| ==> sep !in parts[k]
    ensures Split(Join(parts, sep), sep) == parts
    decreases |parts|
  {
    if |parts| == 1 {
      NoSepNoOccurrence(parts[0], sep);
    } else {
      var a := parts[0];
      var rest := Join(parts[1..], sep);
      var s := a + [sep] + rest;
      assert s == a + [sep] + rest;
      forall j | 0 <= j < |a| ensures !OccursAt(s, [sep], j) {
        assert s[j..j + 1] == [a[j]];
      }
      assert OccursAt(s, [sep], |a|) by { assert s[|a|..|a| + 1] == [sep]; }
      assert IndexOf(s, [sep]) == Some(|a|);
      assert s[..|a|] == a;
      assert s[|a| + 1..] == rest;
      SplitJoin(parts[1..], sep);
      assert [a] + parts[1..] == parts;
    }
  }
}
